=== FILE: README.md ===
# AI industry impact report updater, modelled in Dafny

`scripts/update_readme.py` keeps a markdown report, `README.md`, of news items about AI's
impact on industries. Each run takes one record (date, industry, impact type, summary,
link) and files it as a table row in the report. The report is organised as a
`## 📊 最新动态` section, then `### YYYY-MM` month sections, then `#### <industry>`
subsections, each holding a table with the header `| 日期 | 冲击类型 | 摘要 | 来源 |`.

This project models the editor at the heart of that script, treating the report as a
sequence of lines:

- `add_entry_to_month`: the row inserter. It puts the row right under the separator of the
  first table header in a subsection, or appends a new one-row table.
- The three branches of `update_readme`:
  - month and industry present: find the industry subsection and splice in the rewritten
    one;
  - month present, industry missing: insert a new subsection at the end of the month;
  - month missing: insert a new month section at the end of the latest-news section.
- The scaffold written when the report is missing or empty.
- The footer rewrite that stamps the time of the run.

Modules:

- `Text`: the Python string and list operations the script uses, in Dafny:
  - `split('\n')`, `'\n'.join`, `in`, `find`, `startswith`;
  - `list.insert`, which appends when the index is past the end;
  - `RFind`, the last `*` of a line, which is where the footer regex's greedy `.*`
    stops.

  Each comes with its round-trip and containment lemmas.
- `Scan`: "first index such that" and "last index such that" over lines. These are the
  searches the script's `for … break` loops perform.
- `Layout`: the record and the fixed text the script writes:
  - the row;
  - the blocks for a new table, a new industry and a new month;
  - the scaffold;
  - the footer line;
  - `re.escape`.
- `Sections`: the updater as functions of its inputs. These are the specification.
- `Updater`: the updater as the script runs it. It keeps the loops, `break`s, `-1`
  sentinels, `list.insert` and the slice assignment. Each method is proved equal to its
  specification function. `UpdateReadme` keeps the industry test of line 124 as written,
  on the `re.escape`d name, and equals `Sections.UpdateAsWritten`.
- `Properties`: what the updater promises, proved about the specification `Sections.Update`,
  which uses the literal industry test `"#### " + industry`. `Sections.UpdateAsWrittenAgrees`
  carries every one of them to the script as written for industry names without a
  character that `re.escape` escapes (space, `-`, `+`, `.` and so on).
- `Findings`: what the escaped industry test does to names with such a character.

Three behaviours of the code are easy to miss when reading the script's comments; the model follows
the code:

- The industry scan moves its start to every later line that is again `#### <industry>`
  (`start_idx = i` at line 136 runs for each such line). The slice therefore starts at the
  last repetition before the first other heading, not necessarily at the first line.
- The industry scan looks for `#### <industry>` in the whole document, not only inside the
  entry's month, and a `### ` month line does not stop it (lines 137-142 stop only at a
  `#### ` or `## ` line). The row therefore goes into the last `#### <industry>` subsection
  before the first other `#### ` or `## ` line, which can be in an earlier or a later
  month than the entry's. With `#### X` under both `### 2026-02` and a newer `### 2026-03`
  and no other subsection between them, a new 2026-02 entry lands in the 2026-03 table.
  `Sections.IndustrySlice` models this as it is.
- The footer regex is not a whole-line replacement. It replaces the text from the footer
  prefix to the last `*` on that line, and keeps whatever comes before and after.

## Model

| member | source | states |
|---|---|---|
| Text.Find | scripts/update_readme.py:182 | `find` gives -1 exactly when the text does not contain the pattern. Otherwise it gives an index where the pattern starts, with no earlier such index. |
| Text.StartsWith | scripts/update_readme.py:191 | `startswith`. A predicate without a contract of its own; `Text.Find` and the `Contains` lemmas state what follows from it. |
| Text.Contains | scripts/update_readme.py:126-127 | The `in` test on strings. A predicate without a contract of its own; `Text.ContainsLine`, `Text.ContainsSomeLine`, `Text.ContainsTransitive` and `Text.ContainsChar` state its properties. |
| Text.RFind | scripts/update_readme.py:213-214 | The last position of a character, or -1 exactly when it is absent. No later position holds it. On a footer line this is where the greedy `.*\*` of the pattern ends its match. |
| Text.Split | scripts/update_readme.py:28 | `split('\n')` always yields at least one piece, and no piece holds a newline. |
| Text.Join | scripts/update_readme.py:53 | `'\n'.join`. No contract of its own; `Text.SplitJoin` and `Text.JoinSplit` state that it inverts `split`. |
| Text.Insert | scripts/update_readme.py:51 | `list.insert(k, x)` adds one element. `x` lands at `min(k, len)`, the elements before keep their index and the ones after shift by one. |
| Text.SplitJoin | scripts/update_readme.py:150-151 | Splitting the join of newline-free lines gives the same lines back. |
| Text.JoinSplit | scripts/update_readme.py:129 | Joining the lines of a text gives the text back. |
| Text.SplitJoinAround | scripts/update_readme.py:178-179 | After one element is inserted among newline-free lines, splitting the join yields that element's own lines in its place and leaves the rest alone. |
| Text.ContainsLine | scripts/update_readme.py:126-127 | The joined text contains each of its lines. |
| Text.ContainsSomeLine | scripts/update_readme.py:159 | A newline-free pattern found in the text is found within one of its lines. |
| Text.ContainsTransitive | scripts/update_readme.py:126-127 | A text contains whatever its substrings contain. |
| Text.ContainsChar | scripts/update_readme.py:124 | Every character of a contained string occurs in the text. |
| Scan.FirstFrom | scripts/update_readme.py:33-37 | Gives the first index at or after `i` whose line passes the test, or the number of lines when there is none. No line in between passes. |
| Scan.LastBefore | scripts/update_readme.py:134-136 | Gives the last index before `j` whose line passes the test, or -1. No line after it and before `j` passes. |
| Scan.Holds | scripts/update_readme.py:34 | The per-line tests of the scans (lines 34, 135, 137, 140, 159, 162, 189 and 191): equality, substring, and the heading-prefix tests. A predicate without a contract of its own; `Scan.FirstFrom`, `Scan.LastBefore` and `Sections.IndustrySlice` state what the scans built on it find. |
| Layout.MonthOf | scripts/update_readme.py:120 | `date[:7]` is the first seven characters, or the whole date when it is shorter. |
| Layout.MonthHeading | scripts/update_readme.py:123 | `### ` followed by the month: the month pattern of line 123 and the headings of lines 76 and 201. No contract of its own; `Properties.MonthHeadingSingleLine` and `Properties.NewMonthHeadingUnique` state its properties. |
| Layout.IndustryHeading | scripts/update_readme.py:135 | `#### ` followed by the industry, as at lines 78, 135, 172 and 203. No contract of its own; `Properties.IndustryBlockHasNoMonthHeading` and `Findings.IndustryHeadingDetected` state its properties. |
| Layout.Escape | scripts/update_readme.py:124 | `re.escape` never shortens a name. It keeps the length exactly when the name has no special character. |
| Layout.EscapeIdentity | scripts/update_readme.py:124 | `re.escape` leaves a name without special characters unchanged. |
| Layout.Row | scripts/update_readme.py:49 | The row starts and ends with a pipe character, and it is one line when no field holds a newline. |
| Layout.FooterLine | scripts/update_readme.py:215 | The footer line starts with the prefix the footer pattern looks for and ends with the `*` the pattern ends at. It is one line when the timestamp is. |
| Layout.NewTableSuffix | scripts/update_readme.py:41-46 | The text appended when a section has no table. No contract of its own; `Properties.AddEntryAppendsTable` states its lines. |
| Layout.NewIndustryBlock | scripts/update_readme.py:170-177 | The new-industry text. No contract of its own; `Properties.NewIndustryInsertsBlock` states where its lines land and what they are. |
| Layout.NewMonthBlock | scripts/update_readme.py:199-208 | The new-month text. No contract of its own; `Properties.NewMonthInsertsBlock` states where its lines land and what they are. |
| Layout.ScaffoldLines | scripts/update_readme.py:70-113 | The lines of a created report. No contract of its own; `Properties.ScaffoldShape` and `Properties.ScaffoldKeyLines` state them. |
| Layout.Scaffold | scripts/update_readme.py:70-113 | The text of a created report. No contract of its own; `Properties.ScaffoldShape` states that its lines are `ScaffoldLines`. |
| Sections.AddEntry | scripts/update_readme.py:25-53 | `add_entry_to_month`. No contract of its own; `Properties.AddEntryInsertsRow`, `Properties.AddEntryAppendsTable` and `Properties.AddEntryNewestFirst` state what it does. |
| Sections.IndustrySlice | scripts/update_readme.py:133-146 | The slice is None exactly when no line equals the industry heading. Otherwise the start is such a line, no line inside starts with `#### ` or `## `, and the end is the first other heading line, or the end of the document. |
| Sections.MonthInsertIndex | scripts/update_readme.py:155-168 | Gives the first line starting with `### ` or `## ` after the first line containing the month pattern, or the end. It is the end when no line contains the pattern. |
| Sections.TopInsertIndex | scripts/update_readme.py:185-197 | Gives the first `## ` (not `### `) line after the line that equals the latest-news heading, or the end. It is the end when no line equals it. |
| Sections.SelectBranch | scripts/update_readme.py:126-127 | With the literal industry test: the new-month branch runs exactly when the month pattern is absent, and the month-and-industry branch exactly when both the month pattern and `#### <industry>` occur. |
| Sections.SelectBranchAsWritten | scripts/update_readme.py:123-127 | As written: the new-month branch runs exactly when the month pattern is absent. The month-and-industry branch runs exactly when the month pattern and the escaped name occur. |
| Sections.AsWrittenAgreesWithoutSpecials | scripts/update_readme.py:124-127 | For names without special characters, the test as written and the literal test pick the same branch. |
| Sections.Edit | scripts/update_readme.py:126-210 | The edit before the footer rewrite. No contract of its own; `Properties.UpdateInsertsOneRow`, `Properties.NewIndustryInsertsBlock` and `Properties.NewMonthInsertsBlock` state what each branch does. |
| Sections.EditBy | scripts/update_readme.py:126-210 | The month-and-industry branch leaves the document unchanged when no line equals `#### <industry>`. The new-month branch leaves it unchanged when the latest-news heading is absent. |
| Sections.RewriteFooterLine | scripts/update_readme.py:213-217 | The footer substitution on one line. No contract of its own; `Properties.FooterStampReplaced` and `Properties.RewriteFooterLineShape` state it. |
| Sections.RewriteFooter | scripts/update_readme.py:212-217 | The footer substitution on the whole report. No contract of its own; `Properties.RewriteFooterKeepsLines` states it. |
| Sections.Update | scripts/update_readme.py:56-220 | One run with the literal industry test. No contract of its own; `Properties.ScaffoldOnlyWhenEmpty` states when it creates, and the other `Properties` lemmas what it edits. |
| Sections.UpdateAsWritten | scripts/update_readme.py:56-220 | A run as written returns `Created` exactly when the report is missing or empty (`if not readme`). |
| Sections.UpdateAsWrittenAgrees | scripts/update_readme.py:56-220 | For industry names without special characters, a run as written equals `Update`, so what is proved of `Update` holds for the script on those names. |
| Updater.AddEntryToMonth | scripts/update_readme.py:25-53 | The loop and `insert` compute `AddEntry`. Without a header line the result is the section followed by the new-table text. |
| Updater.LocateIndustry | scripts/update_readme.py:129-146 | The scan with its three cases and `break`s gives `start_idx == -1` exactly when the slice is None, and otherwise gives the slice's bounds. |
| Updater.FindMonthEnd | scripts/update_readme.py:154-168 | The nested loops and the `-1` fallback compute `MonthInsertIndex`. |
| Updater.FindTopEnd | scripts/update_readme.py:184-197 | The nested loops and the `-1` fallback compute `TopInsertIndex`. |
| Updater.UpdateReadme | scripts/update_readme.py:56-220 | One run returns exactly `Sections.UpdateAsWritten`, industry test of line 124 included: the scaffold for a missing or empty report, otherwise the edited report with the footer rewritten. For industry names without special characters it returns exactly `Sections.Update`. |
| Properties.AddEntryInsertsRow | scripts/update_readme.py:31-53 | With the header first found on line `h`, the lines of the result are the original lines with the row's lines inserted at `h+2`, or appended when the section ends sooner. For a row of one line that is exactly one line. All other lines keep their value and order, later tables included. |
| Properties.AddEntryAppendsTable | scripts/update_readme.py:39-46 | Without a header line, the section is a strict prefix of the result and the rest is the new-table text. Its lines are the section's lines, then a blank line, the header, the separator, the row and a blank line. |
| Properties.AddEntryNewestFirst | scripts/update_readme.py:48-53 | Inserting A and then B into the same table puts B's row directly above A's, both right under the separator. |
| Properties.MonthHeadingInsideSlice | scripts/update_readme.py:137-142 | A `### ` line never ends an industry subsection. |
| Properties.IndustrySliceStartsAtHeading | scripts/update_readme.py:134-136 | When the industry heading occurs on one line only, the slice starts there. |
| Properties.SpliceKeepsOutside | scripts/update_readme.py:148-151 | In the month-and-industry branch, the lines before the slice and from its end onwards are kept. Only the slice is replaced, by the lines of the rewritten subsection. Stated for the branch itself (`EditBy`), so it holds whichever test picked the branch, the script's escaped test included. |
| Properties.UpdateInsertsOneRow | scripts/update_readme.py:144-151 | The month-and-industry branch inserts the row's lines, and nothing else, two lines below the slice's first header (or at the slice's end). For a row of one line that is exactly one inserted line. Stated for the branch itself (`EditBy`), so it holds whichever test picked the branch, the script's escaped test included. |
| Properties.SpliceInsertsRow | scripts/update_readme.py:148-151 | Splicing the rewritten slice back is the same as inserting the row's lines at their absolute position in the whole document. |
| Properties.SliceInsertsRow | scripts/update_readme.py:148-149 | Rewriting a slice whose header is at `h` inserts the row's lines at `h+2` of the slice. |
| Properties.SplitInsert | scripts/update_readme.py:178-179 | After a string is inserted as one list element, the document's lines are the old lines with that string's lines in its place. |
| Properties.SplitInsertBlock | scripts/update_readme.py:178-179 | After a block is inserted as one list element, the document's lines are the old lines with the block's lines in that place. |
| Properties.IndustryBlockHasNoMonthHeading | scripts/update_readme.py:170-177 | No line of a new industry block starts with `### `. |
| Properties.NewIndustryInsertsBlock | scripts/update_readme.py:154-179 | The new-industry branch gives the original lines with the block's lines inserted at `MonthInsertIndex`; for single-line fields those are the blank lines, heading and table of `IndustryBlockLines`. All other lines keep their order. Stated for the branch itself (`EditBy`), so it holds whichever test picked the branch, the script's escaped test included. |
| Properties.NewIndustryKeepsMonth | scripts/update_readme.py:158-179 | The block lands below a line containing the month pattern. The number of lines equal to the month heading is unchanged. Stated for the branch itself (`EditBy`), so it holds whichever test picked the branch, the script's escaped test included. |
| Properties.NewMonthInsertsBlock | scripts/update_readme.py:182-210 | The new-month branch gives the original lines with the month block's lines inserted at `TopInsertIndex`; for single-line fields those are `MonthBlockLines`. All other lines keep their order. Stated for the branch itself (`EditBy`), so it holds whichever test picked the branch, the script's escaped test included. |
| Properties.NewMonthHeadingUnique | scripts/update_readme.py:199-210 | After the new-month branch, exactly one line is the month heading. Stated for the branch itself (`EditBy`), so it holds whichever test picked the branch, the script's escaped test included. |
| Properties.BranchDependsOnlyOnTests | scripts/update_readme.py:126-127 | Two runs whose month and industry substring tests agree take the same branch. It holds by construction of `SelectBranch`. Proved of the literal industry test; for the script as written it holds for industry names without special characters (`Sections.UpdateAsWrittenAgrees`). |
| Properties.NewMonthThenSameMonth | scripts/update_readme.py:126-127 | After the new-month branch, the next entry of that month does not take the new-month branch. With the same industry, it takes the month-and-industry branch. Proved of the literal industry test; for the script as written it holds for industry names without special characters (`Sections.UpdateAsWrittenAgrees`). |
| Properties.NewMonthThenNewIndustry | scripts/update_readme.py:126-179 | After the new-month branch, an entry of the same month with an industry not yet in the report takes the new-industry branch. The month heading stays on exactly one line. Proved of the literal industry test; for the script as written it holds for industry names without special characters (`Sections.UpdateAsWrittenAgrees`). |
| Properties.NewIndustryThenSameIndustry | scripts/update_readme.py:126-179 | After the new-industry branch, the next entry of the same month and industry takes the month-and-industry branch. Proved of the literal industry test; for the script as written it holds for industry names without special characters (`Sections.UpdateAsWrittenAgrees`). |
| Properties.FooterStampReplaced | scripts/update_readme.py:212-217 | The footer line with an earlier timestamp becomes exactly the footer line with the new one. |
| Properties.RewriteFooterLineShape | scripts/update_readme.py:213-217 | A line without the footer prefix is unchanged, and a rewritten line gains no newline. |
| Properties.RewriteFooterKeepsLines | scripts/update_readme.py:213-217 | The footer rewrite keeps the number of lines and rewrites each line on its own. Every line without the prefix is kept. |
| Properties.ScaffoldOnlyWhenEmpty | scripts/update_readme.py:68-70 | The scaffold is produced exactly when the report is missing or empty. It holds by construction of `Update`. |
| Properties.ScaffoldShape | scripts/update_readme.py:70-113 | The scaffold's lines are as listed: latest-news heading at 4, month heading at 6, and the industry subsection with its one-row table at 8-13. Line 14 is the `## ` category heading and line 42 is the footer. |
| Properties.ScaffoldIndustrySlice | scripts/update_readme.py:78-84 | In the scaffold, the entry's industry subsection is lines 8 to 13. |
| Properties.ScaffoldThenSameSection | scripts/update_readme.py:78-82 | A second entry of the same month and industry is inserted at line 12 of the created report. That puts it above the first entry's row, and no other line changes. Proved of the literal industry test; for the script as written it holds for industry names without special characters (`Sections.UpdateAsWrittenAgrees`). |
| Properties.ScaffoldKeyLines | scripts/update_readme.py:76-112 | The created report has 44 lines, with the month heading, the industry heading, the row and the footer at 6, 8, 12 and 42. |
| Properties.ScaffoldSecondRun | scripts/update_readme.py:68-217 | A second run on the created report adds one line. The month and industry headings stay at 6 and 8, the new row is at 12 above the first at 13, and the footer carries the new timestamp. No other line equals the industry heading, and, for a date that starts with a digit, no other line equals the month heading. Proved of the literal industry test; for the script as written it holds for industry names without special characters (`Sections.UpdateAsWrittenAgrees`). |
| Findings.EscapeAddsBackslash | scripts/update_readme.py:124 | An escaped name holds a backslash when the name has a special character. |
| Findings.EscapedIndustryMissed | scripts/update_readme.py:124-127 | As written, an existing subsection whose name has a special character is missed. The new-industry branch runs and adds one more `#### <industry>` line, while the literal test picks the month-and-industry branch. |
| Findings.AsWrittenAddsHeading | scripts/update_readme.py:170-179 | The new-industry branch adds exactly one more line equal to the industry heading. |
| Findings.IndustryHeadingDetected | scripts/update_readme.py:126-151 | With the literal test, an existing `#### <industry>` line always leads to the month-and-industry branch, and the scan finds a subsection. For single-line fields the edit then keeps the number of `#### <industry>` lines unchanged, so no second subsection of that name is created. |

## Left out

- Reading and writing `README.md` (scripts/update_readme.py:10-22): the report is an input
  (`None` for a missing file), and the output is the text of the `Outcome`.
- JSON decoding and its error print (scripts/update_readme.py:59-63): the input is the
  parsed record `Layout.Entry`. The malformed-JSON return is not modelled.
- `datetime.now()` (scripts/update_readme.py:112, 215): the formatted timestamp is a
  parameter.
- The printed messages (scripts/update_readme.py:115, 220): `Created` and `Updated` say
  which one a run prints.
- `main` and `sys.argv` (scripts/update_readme.py:223-234): command-line plumbing.
- scripts/fetch_article.py is not part of this model. It is HTTP and HTML extraction
  through libraries.
- Sections.RewriteFooter: puts the timestamp in literally. `re.sub` would also interpret
  backslash escapes in the replacement, but a `strftime` timestamp holds none.
- Sections.RewriteFooter: is modelled line by line. This is exact for the script's
  pattern, because `.` does not match a newline, so a match never spans lines.
- Layout.Escape: follows the special-character set of Python 3.7 and later. Python 3.3
  to 3.6 escape every character except ASCII letters, digits and `_`; there every
  industry name with a Chinese character is escaped, and the test at line 127 never
  holds for it.
- Sections.SelectBranch: uses the literal industry test `"#### " + industry`, not the
  escaped one of line 124. The script's test is Sections.SelectBranchAsWritten, which
  `Updater.UpdateReadme` uses; the two agree for names without special characters
  (Sections.AsWrittenAgreesWithoutSpecials), and the rest is under Findings.
- Sections.Update: is the run with the literal test. The `Properties` lemmas about one
  branch are stated on `EditBy` and hold for the script for every name. Those that
  involve the choice of branch are proved of `Update`, and hold for the script through
  Sections.UpdateAsWrittenAgrees, that is, only for industry names without special
  characters.
- Fields holding a newline: the script does not exclude them. A row or heading with a
  newline becomes several lines of the report. The insertion lemmas
  (Properties.AddEntryInsertsRow, Properties.UpdateInsertsOneRow,
  Properties.NewIndustryInsertsBlock, Properties.NewMonthInsertsBlock) state the general
  case with the text's own lines. The members below require `SingleLine` (no field holds
  a newline), and some also a timestamp without one.
- Properties.AddEntryNewestFirst: requires single-line fields, so that each row is one
  line and the second insert lands where the first did.
- Properties.NewIndustryKeepsMonth: requires single-line fields; a newline in the
  industry could put a month heading line inside the new block.
- Properties.NewMonthHeadingUnique: requires single-line fields; a newline in the
  industry could add a second line equal to the month heading.
- Properties.NewMonthThenNewIndustry: requires single-line fields for both entries.
- Properties.NewIndustryThenSameIndustry: requires a date without a newline, so that the
  month pattern lies within one line.
- Properties.ScaffoldShape: requires single-line fields and timestamp; otherwise the line
  numbers of the created report shift.
- Properties.ScaffoldKeyLines: requires single-line fields and timestamp, as ScaffoldShape.
- Properties.ScaffoldThenSameSection: requires single-line fields and timestamp, as
  ScaffoldShape.
- Properties.ScaffoldThenSameSection: requires that the industry heading does not contain
  the table header. For such a name the test at line 34 matches the heading line itself,
  and line 51 inserts the row at report line 10, above the table header.
- Findings.EscapedIndustryMissed: requires single-line fields, so that the industry
  heading is one line of the report.
- Findings.AsWrittenAddsHeading: requires single-line fields, so that the new block adds
  exactly one heading line.
- Findings.IndustryHeadingDetected: states the unchanged heading count only for
  single-line fields; a newline in a field could make a row line equal to the heading.
- Properties.ScaffoldSecondRun: requires single-line fields and timestamps, as
  ScaffoldShape. It says that the month heading is on one line only for a date that
  starts with a digit: the date `🏥 医疗健康` would make the month heading equal to
  a category line of the scaffold.
- Properties.ScaffoldSecondRun: requires that the industry heading does not contain the
  table header. For such a name the test at line 34 matches the heading line itself, and
  line 51 inserts the row at report line 10, above the table header.
- Properties.NewMonthThenNewIndustry: requires that the new industry's heading text
  occurs nowhere in the report. Otherwise the script takes the month-and-industry branch.
- Properties.ScaffoldSecondRun: requires that the row and heading texts do not contain
  the footer prefix. The script's regex would rewrite such a line as well.
- Strings are sequences of Unicode code points, as Python `str` values are. No encoding
  is modelled.

## Findings

| source | as written | input that shows it | evidently intended | confidence | as-written member | corrected member |
|---|---|---|---|---|---|---|
| scripts/update_readme.py:124-127 | The industry test looks for `"#### " + re.escape(industry)` as plain text, so it looks for the escaped name with its backslashes. | Entry dated `2026-02-10` with industry `AI+医疗`, and a report holding `### 2026-02` and the line `#### AI+医疗`, with no backslash. The test fails, the new-industry branch runs, and a second `#### AI+医疗` subsection is added. Every name with a space, `-` or `+` behaves the same. | Test for `"#### " + industry`, the same text the scan at line 135 compares lines with. | not executed; high | Findings.EscapedIndustryMissed | Findings.IndustryHeadingDetected |

=== FILE: findings.dfy ===
/** The industry test of `update_readme` as written, `"#### " + re.escape(industry) in
    content`, looks for the ESCAPED name literally. For an industry name holding a
    character that `re.escape` escapes, the test fails although the subsection exists,
    and the new-industry branch adds a second subsection of the same name. The script as
    written is Sections.SelectBranchAsWritten; the properties are proved of the literal
    test `"#### " + industry` (Sections.SelectBranch). */
module Findings {
  import opened Text
  import opened Scan
  import opened Layout
  import opened Sections
  import opened Properties

  /** An escaped name holds a backslash as soon as one of its characters is special. */
  lemma {:induction false} EscapeAddsBackslash(s: string, k: nat)
    requires k < |s| && s[k] in RegexSpecials
    ensures '\\' in Escape(s)
    decreases |s|
  {
    if k == 0 {
      assert Escape(s)[0] == '\\';
    } else {
      EscapeAddsBackslash(s[1..], k - 1);
      var head := if s[0] in RegexSpecials then ['\\', s[0]] else [s[0]];
      assert Escape(s) == head + Escape(s[1..]);
    }
  }

  /** As written, an industry name with a special character is never found in a report
      without backslashes, even when its subsection is there: the new-industry branch
      runs where the corrected test picks the month-and-industry branch, and the edit
      adds one more line `#### <industry>` to the report. */
  lemma EscapedIndustryMissed(doc: string, e: Entry, k: nat)
    requires k < |e.industry| && e.industry[k] in RegexSpecials
    requires '\\' !in doc && SingleLine(e)
    requires Contains(doc, MonthHeading(e)) && IndustryHeading(e) in Split(doc)
    ensures SelectBranchAsWritten(doc, e) == NewIndustry
    ensures SelectBranch(doc, e) == MonthAndIndustry
    ensures var ls := Split(doc);
      multiset(Split(EditBy(doc, e, NewIndustry)))[IndustryHeading(e)]
        == multiset(ls)[IndustryHeading(e)] + 1 >= 2
  {
    var pattern := "#### " + Escape(e.industry);
    EscapeAddsBackslash(e.industry, k);
    ContainsMiddle("#### ", Escape(e.industry), "");
    assert "#### " + Escape(e.industry) + "" == pattern;
    if Contains(doc, pattern) {
      ContainsChar(doc, pattern, '\\');
      assert false;
    }
    IndustryHeadingDetected(doc, e);
    AsWrittenAddsHeading(doc, e);
  }

  /** The new-industry branch adds one more line equal to the industry heading. */
  lemma AsWrittenAddsHeading(doc: string, e: Entry)
    requires SingleLine(e) && IndustryHeading(e) in Split(doc)
    ensures var ls := Split(doc);
      multiset(Split(EditBy(doc, e, NewIndustry)))[IndustryHeading(e)]
        == multiset(ls)[IndustryHeading(e)] + 1 >= 2
  {
    var ls := Split(doc);
    var k := MonthInsertIndex(ls, MonthHeading(e));
    var b := IndustryBlockLines(e);
    BlockLinesNewlineFree(e);
    SplitInsertBlock(ls, k, b);
    InsertedBlockCount(ls, k, e);
  }

  /** Splicing in the block adds its one heading line to those already there. */
  lemma InsertedBlockCount(ls: seq<string>, k: nat, e: Entry)
    requires k <= |ls| && IndustryHeading(e) in ls
    ensures var h := IndustryHeading(e);
      multiset(ls[..k] + IndustryBlockLines(e) + ls[k..])[h] == multiset(ls)[h] + 1 >= 2
  {
    IndustryBlockCount(e);
    SpliceCount(ls, k, IndustryBlockLines(e), IndustryHeading(e));
  }

  lemma IndustryBlockCount(e: Entry)
    ensures multiset(IndustryBlockLines(e))[IndustryHeading(e)] == 1
  {
    var h := IndustryHeading(e);
    var rest := ["", TableHeader, TableSeparator, Row(e), ""];
    assert IndustryBlockLines(e) == ["", ""] + [h] + rest;
    assert TableHeader[0] == '|' && TableSeparator[0] == '|' && Row(e)[0] == '|' && h[0] == '#';
    CountOnce(["", ""], h, rest);
  }

  /** Corrected: whenever the month is present and a line is exactly the industry
      heading, the month-and-industry branch runs and finds that subsection, so no
      second subsection of the same name is created: the number of heading lines stays
      the same. */
  lemma IndustryHeadingDetected(doc: string, e: Entry)
    requires Contains(doc, MonthHeading(e)) && IndustryHeading(e) in Split(doc)
    ensures SelectBranch(doc, e) == MonthAndIndustry
    ensures IndustrySlice(Split(doc), IndustryHeading(e)).Some?
    ensures SingleLine(e) ==>
      multiset(Split(Edit(doc, e)))[IndustryHeading(e)] == multiset(Split(doc))[IndustryHeading(e)]
  {
    var ls := Split(doc);
    var i :| 0 <= i < |ls| && ls[i] == IndustryHeading(e);
    JoinSplit(doc);
    ContainsLine(ls, i);
    if SingleLine(e) {
      var (s, t) := IndustrySlice(ls, IndustryHeading(e)).value;
      SpliceKeepsOutside(doc, e, s, t);
      SliceNewlineFree(ls, s, t);
      SliceAddKeepsCount(ls[s..t], e, IndustryHeading(e));
      ReplaceKeepsCount(ls, s, t, Split(AddEntry(Join(ls[s..t]), e)), IndustryHeading(e));
    }
  }

  /** Adding a one-line row to a subsection adds no line starting with `#`. */
  lemma SliceAddKeepsCount(sl: seq<string>, e: Entry, x: string)
    requires |sl| > 0 && NewlineFree(sl) && SingleLine(e) && |x| > 0 && x[0] == '#'
    ensures multiset(Split(AddEntry(Join(sl), e)))[x] == multiset(sl)[x]
  {
    var section := Join(sl);
    SplitJoin(sl);
    var h := FirstFrom(Split(section), 0, HasText(TableHeader));
    if h < |Split(section)| {
      RowAddKeepsCount(section, e, x, h);
    } else {
      assert forall j :: 0 <= j < |Split(section)| ==> !Holds(HasText(TableHeader), Split(section)[j]);
      TableAddKeepsCount(section, e, x);
    }
  }

  lemma RowAddKeepsCount(section: string, e: Entry, x: string, h: nat)
    requires SingleLine(e) && |x| > 0 && x[0] == '#'
    requires h < |Split(section)| && h == FirstFrom(Split(section), 0, HasText(TableHeader))
    ensures multiset(Split(AddEntry(section, e)))[x] == multiset(Split(section))[x]
  {
    var ls := Split(section);
    assert Contains(ls[h], TableHeader);
    AddEntryInsertsRow(section, e, h);
    var k := if h + 2 < |ls| then h + 2 else |ls|;
    assert Row(e)[0] == '|';
    SpliceCount(ls, k, [Row(e)], x);
  }

  lemma TableAddKeepsCount(section: string, e: Entry, x: string)
    requires SingleLine(e) && |x| > 0 && x[0] == '#'
    requires forall j :: 0 <= j < |Split(section)| ==> !Contains(Split(section)[j], TableHeader)
    ensures multiset(Split(AddEntry(section, e)))[x] == multiset(Split(section))[x]
  {
    AddEntryAppendsTable(section, e);
    AppendKeepsCount(Split(section), e, x);
  }

  lemma AppendKeepsCount(ls: seq<string>, e: Entry, x: string)
    requires |x| > 0 && x[0] == '#'
    ensures multiset(ls + ["", TableHeader, TableSeparator, Row(e), ""])[x] == multiset(ls)[x]
  {
    var tail := ["", TableHeader, TableSeparator, Row(e), ""];
    assert TableHeader[0] == '|' && TableSeparator[0] == '|' && Row(e)[0] == '|';
    assert x !in tail;
    assert multiset(ls + tail) == multiset(ls) + multiset(tail);
  }

  /** Replacing the lines `[s, t)` by lines with as many copies of `x` keeps its count. */
  lemma ReplaceKeepsCount<T>(ls: seq<T>, s: nat, t: nat, mid: seq<T>, x: T)
    requires s <= t <= |ls| && multiset(mid)[x] == multiset(ls[s..t])[x]
    ensures multiset(ls[..s] + mid + ls[t..])[x] == multiset(ls)[x]
  {
    assert ls == ls[..s] + ls[s..t] + ls[t..];
    assert multiset(ls[..s] + mid + ls[t..]) == multiset(ls[..s]) + multiset(mid) + multiset(ls[t..]);
    assert multiset(ls) == multiset(ls[..s]) + multiset(ls[s..t]) + multiset(ls[t..]);
  }
}

=== FILE: layout.dfy ===
/** The record the updater is given and the fixed markdown text it writes
    (scripts/update_readme.py): table header and separator, the table row,
    the blocks for a new table, a new industry and a new month, the scaffold
    of a new report, the footer line, and Python's `re.escape`. */
module Layout {
  import opened Text

  /** The parsed input record; the updater reads these five keys. */
  datatype Entry = Entry(
    date: string,        // "YYYY-MM-DD"
    industry: string,
    impactType: string,
    summary: string,
    url: string)

  const TableHeader: string := "| 日期 | 冲击类型 | 摘要 | 来源 |"
  const TableSeparator: string := "|------|----------|------|------|"
  /** The heading under which month sections are kept. */
  const LatestHeading: string := "## 📊 最新动态"
  /** The start of the footer line, up to and including the colon. */
  const FooterPrefix: string := "*本仓库由 AI 自动维护，最后更新时间:"

  /** `date[:7]`: the "YYYY-MM" part, or the whole date when it is shorter. */
  function MonthOf(date: string): (m: string)
    ensures |m| <= 7 && |m| <= |date| && m == date[..|m|]
    ensures |date| >= 7 ==> |m| == 7
    ensures |date| < 7 ==> m == date
  {
    if |date| <= 7 then date else date[..7]
  }

  /** `### YYYY-MM`, the month pattern. */
  function MonthHeading(e: Entry): string {
    "### " + MonthOf(e.date)
  }

  /** `#### <industry>`, the line that opens an industry subsection. */
  function IndustryHeading(e: Entry): string {
    "#### " + e.industry
  }

  /** One table row, in the fixed column order date, impact type, summary, link. It is
      delimited by `|` on both ends, and is one line when the fields are. */
  function Row(e: Entry): (r: string)
    ensures |r| > 0 && r[0] == '|' && r[|r| - 1] == '|'
    ensures SingleLine(e) ==> '\n' !in r
  {
    "| " + e.date + " | " + e.impactType + " | " + e.summary + " | [链接](" + e.url + ") |"
  }

  /** The fields that end up in a row, a heading or the footer hold no newline. */
  predicate SingleLine(e: Entry) {
    '\n' !in e.date && '\n' !in e.industry && '\n' !in e.impactType
      && '\n' !in e.summary && '\n' !in e.url
  }

  /** The lines of a one-row table. */
  function TableLines(e: Entry): seq<string> {
    [TableHeader, TableSeparator, Row(e)]
  }

  /** The lines of a new industry subsection, without the blank lines around it. */
  function IndustryLines(e: Entry): seq<string> {
    [IndustryHeading(e), ""] + TableLines(e)
  }

  /** What `add_entry_to_month` appends to a section that has no table. */
  function NewTableSuffix(e: Entry): string {
    Join(["", ""] + TableLines(e) + [""])
  }

  /** The lines of the new-industry block: two blank lines, the subsection, a blank line. */
  function IndustryBlockLines(e: Entry): seq<string> {
    ["", ""] + IndustryLines(e) + [""]
  }

  /** The single list element that the new-industry branch inserts. */
  function NewIndustryBlock(e: Entry): string {
    Join(IndustryBlockLines(e))
  }

  /** The lines of the new-month block: the month heading above a new subsection. */
  function MonthBlockLines(e: Entry): seq<string> {
    ["", "", MonthHeading(e), ""] + IndustryLines(e) + [""]
  }

  /** The single list element that the new-month branch inserts. */
  function NewMonthBlock(e: Entry): string {
    Join(MonthBlockLines(e))
  }

  lemma RowSingleLine(e: Entry)
    requires SingleLine(e)
    ensures '\n' !in Row(e) && '\n' !in IndustryHeading(e) && '\n' !in MonthHeading(e)
  {
    var m := MonthOf(e.date);
    assert forall i :: 0 <= i < |m| ==> m[i] == e.date[i];
  }

  /** The blocks written for an entry of single-line fields are lines of their own. */
  lemma BlockLinesNewlineFree(e: Entry)
    requires SingleLine(e)
    ensures NewlineFree(TableLines(e)) && NewlineFree(IndustryLines(e))
    ensures NewlineFree(IndustryBlockLines(e)) && NewlineFree(MonthBlockLines(e))
  {
    RowSingleLine(e);
    assert '\n' !in TableHeader && '\n' !in TableSeparator;
    assert NewlineFree(TableLines(e));
    NewlineFreeAppend([IndustryHeading(e), ""], TableLines(e));
    NewlineFreeAppend(["", ""], IndustryLines(e));
    NewlineFreeAppend(["", ""] + IndustryLines(e), [""]);
    NewlineFreeAppend(["", "", MonthHeading(e), ""], IndustryLines(e));
    NewlineFreeAppend(["", "", MonthHeading(e), ""] + IndustryLines(e), [""]);
  }

  /** The footer line with a given timestamp: the prefix the footer rewrite looks for,
      closed by the `*` its pattern ends at, one line when the timestamp is. */
  function FooterLine(stamp: string): (r: string)
    ensures StartsWith(r, FooterPrefix) && r[0] == '*' && r[|r| - 1] == '*'
    ensures '\n' !in stamp ==> '\n' !in r
  {
    FooterPrefix + " " + stamp + "*"
  }

  /** The category list and the rule that close the scaffold, above the footer. */
  const CategoryLines: seq<string> :=
    ["## 📁 按行业分类", "",
     "### 💻 科技与互联网", "...", "",
     "### 🏥 医疗健康", "...", "",
     "### 🎓 教育培训", "...", "",
     "### 🏦 金融服务", "...", "",
     "### 🎨 内容创作", "...", "",
     "### 🏭 制造业", "...", "",
     "### 🛒 零售电商", "...", "",
     "### ⚖️ 法律服务", "...", "",
     "---", ""]

  lemma CategoryLinesNewlineFree()
    ensures NewlineFree(CategoryLines)
  {
  }

  /** The title and the latest-news heading that open the scaffold. */
  const ScaffoldHead: seq<string> :=
    ["# AI 行业冲击监测", "", "> 自动追踪 AI 技术对各行各业的冲击与变革", "", LatestHeading, ""]

  lemma ScaffoldHeadNewlineFree()
    ensures NewlineFree(ScaffoldHead)
  {
  }

  /** The lines of the report created when there is none. */
  function ScaffoldLines(e: Entry, stamp: string): seq<string> {
    ScaffoldHead
    + [MonthHeading(e), ""] + IndustryLines(e) + [""]
    + CategoryLines
    + [FooterLine(stamp), ""]
  }

  /** The text of the report created when there is none. */
  function Scaffold(e: Entry, stamp: string): string {
    Join(ScaffoldLines(e, stamp))
  }

  /** The characters Python's `re.escape` (3.7 and later) puts a backslash before. */
  const RegexSpecials: set<char> :=
    {'(', ')', '[', ']', '{', '}', '?', '*', '+', '-', '|', '^', '$', '\\', '.', '&', '~',
     '#', ' ', '\t', '\n', '\r', '\U{0B}', '\U{0C}'}

  /** `re.escape(s)` */
  function Escape(s: string): (r: string)
    ensures |r| >= |s|
    ensures |r| == |s| <==> forall i :: 0 <= i < |s| ==> s[i] !in RegexSpecials
    decreases |s|
  {
    if |s| == 0 then ""
    else (if s[0] in RegexSpecials then ['\\', s[0]] else [s[0]]) + Escape(s[1..])
  }

  /** Names without special characters are left alone by `re.escape`. */
  lemma {:induction false} EscapeIdentity(s: string)
    requires forall i :: 0 <= i < |s| ==> s[i] !in RegexSpecials
    ensures Escape(s) == s
    decreases |s|
  {
    if |s| > 0 {
      EscapeIdentity(s[1..]);
      assert [s[0]] + s[1..] == s;
    }
  }
}

=== FILE: properties.dfy ===
/** What the updater of scripts/update_readme.py promises, proved about the
    functions of module Sections, and so about the methods of module Updater, which
    are proved equal to them; the run as written (`Updater.UpdateReadme`) equals
    `Sections.Update` for industry names without special characters. */
module Properties {
  import opened Wrappers
  import opened Text
  import opened Scan
  import opened Layout
  import opened Sections

  /** With the table header first found on line `h` of the section, the row is inserted
      two lines below it (after the separator), or appended when the section ends
      sooner; every other line keeps its text and its order, later tables included.
      A field holding a newline makes the row several lines, all of them in that place. */
  lemma AddEntryInsertsRow(section: string, e: Entry, h: nat)
    requires h < |Split(section)| && Contains(Split(section)[h], TableHeader)
    requires forall j :: 0 <= j < h ==> !Contains(Split(section)[j], TableHeader)
    ensures var ls := Split(section);
      var k := if h + 2 < |ls| then h + 2 else |ls|;
      Split(AddEntry(section, e)) == ls[..k] + Split(Row(e)) + ls[k..]
    ensures var ls := Split(section);
      var k := if h + 2 < |ls| then h + 2 else |ls|;
      SingleLine(e) ==> Split(AddEntry(section, e)) == ls[..k] + [Row(e)] + ls[k..]
  {
    var ls := Split(section);
    var k := if h + 2 < |ls| then h + 2 else |ls|;
    AddEntryAsInsert(section, e, h);
    SplitInsert(ls, k, Row(e));
    if SingleLine(e) {
      SplitSingle(Row(e));
    }
  }

  /** With the header first found on line `h`, the section's lines get the row inserted
      at `h + 2`, clamped to the end as `list.insert` does. */
  lemma AddEntryAsInsert(section: string, e: Entry, h: nat)
    requires h < |Split(section)| && Contains(Split(section)[h], TableHeader)
    requires forall j :: 0 <= j < h ==> !Contains(Split(section)[j], TableHeader)
    ensures var ls := Split(section);
      var k := if h + 2 < |ls| then h + 2 else |ls|;
      AddEntry(section, e) == Join(Insert(ls, k, Row(e)))
  {
    FirstFromIs(Split(section), 0, HasText(TableHeader), h);
  }

  lemma NewTableSuffixLines(e: Entry)
    ensures NewTableSuffix(e) == "\n" + Join(["", TableHeader, TableSeparator, Row(e), ""])
  {
    var full := ["", ""] + TableLines(e) + [""];
    assert full[0] == "" && full[1..] == ["", TableHeader, TableSeparator, Row(e), ""];
    assert Join(full) == full[0] + "\n" + Join(full[1..]);
  }

  /** Without a table header in the section, the section text is kept as a strict prefix
      and a one-row table is appended after a blank line. */
  lemma AddEntryAppendsTable(section: string, e: Entry)
    requires forall j :: 0 <= j < |Split(section)| ==> !Contains(Split(section)[j], TableHeader)
    ensures var r := AddEntry(section, e);
      |r| > |section| && r[..|section|] == section && r[|section|..] == NewTableSuffix(e)
    ensures SingleLine(e) ==>
      Split(AddEntry(section, e)) == Split(section) + ["", TableHeader, TableSeparator, Row(e), ""]
  {
    FirstFromIs(Split(section), 0, HasText(TableHeader), |Split(section)|);
    var tail := ["", TableHeader, TableSeparator, Row(e), ""];
    NewTableSuffixLines(e);
    assert AddEntry(section, e) == section + "\n" + Join(tail);
    if SingleLine(e) {
      BlockLinesNewlineFree(e);
      assert tail == [""] + TableLines(e) + [""];
      NewlineFreeAppend([""], TableLines(e));
      NewlineFreeAppend([""] + TableLines(e), [""]);
      SplitAtNewline(section, Join(tail));
      SplitJoin(tail);
    }
  }

  /** Rows inserted one after the other into the same table come out newest first:
      `add_entry_to_month` always inserts at the same position. */
  lemma AddEntryNewestFirst(section: string, a: Entry, b: Entry, h: nat)
    requires SingleLine(a) && SingleLine(b)
    requires h + 2 <= |Split(section)| && Contains(Split(section)[h], TableHeader)
    requires forall j :: 0 <= j < h ==> !Contains(Split(section)[j], TableHeader)
    ensures var ls := Split(section);
      Split(AddEntry(AddEntry(section, a), b)) == ls[..h + 2] + [Row(b), Row(a)] + ls[h + 2..]
  {
    var ls := Split(section);
    var pre, post := ls[..h + 2], ls[h + 2..];
    AddEntryInsertsRow(section, a, h);
    var once := AddEntry(section, a);
    var ls1 := Split(once);
    assert ls1 == pre + ([Row(a)] + post);
    assert forall j :: 0 <= j <= h ==> ls1[j] == ls[j];
    AddEntryInsertsRow(once, b, h);
    assert ls1[..h + 2] == pre;
    assert ls1[h + 2..] == [Row(a)] + post;
    Regroup(pre, Row(b), Row(a), post);
  }

  lemma Regroup<T>(pre: seq<T>, x: T, y: T, post: seq<T>)
    ensures pre + [x] + ([y] + post) == pre + [x, y] + post
  {
  }

  /** A `### ` month heading never ends an industry subsection. */
  lemma MonthHeadingInsideSlice(line: string, heading: string)
    requires StartsWith(line, "### ")
    ensures !Holds(IndustryBoundary(heading), line)
  {
    assert line[3] == ' ' && line[2] == '#';
  }

  /** When the industry heading occurs on one line only, the subsection starts there. */
  lemma IndustrySliceStartsAtHeading(ls: seq<string>, heading: string, f: nat)
    requires f < |ls| && ls[f] == heading
    requires forall j :: 0 <= j < |ls| && ls[j] == heading ==> j == f
    ensures IndustrySlice(ls, heading).Some? && IndustrySlice(ls, heading).value.0 == f
  {
  }

  /** The month-and-industry branch replaces the lines `[s, t)` of the subsection by the
      lines of its rewritten text; the lines before `s` and from `t` on are kept. */
  lemma SpliceKeepsOutside(doc: string, e: Entry, s: nat, t: nat)
    requires IndustrySlice(Split(doc), IndustryHeading(e)) == Some((s, t))
    ensures var ls := Split(doc);
      Split(EditBy(doc, e, MonthAndIndustry)) == ls[..s] + Split(AddEntry(Join(ls[s..t]), e)) + ls[t..]
  {
    var ls := Split(doc);
    var mid := Split(AddEntry(Join(ls[s..t]), e));
    assert NewlineFree(ls[..s]) && NewlineFree(ls[t..]) && NewlineFree(mid);
    NewlineFreeAppend(ls[..s], mid);
    NewlineFreeAppend(ls[..s] + mid, ls[t..]);
    SplitJoin(ls[..s] + mid + ls[t..]);
  }

  /** The month-and-industry branch adds the row's lines, and nothing else, two lines
      below the first table header of the subsection (or at the subsection's end when it
      ends sooner); for a one-line row that is exactly one line. */
  lemma UpdateInsertsOneRow(doc: string, e: Entry, s: nat, t: nat, h: nat)
    requires IndustrySlice(Split(doc), IndustryHeading(e)) == Some((s, t))
    requires t <= |Split(doc)| && h < t - s
    requires FirstFrom(Split(doc)[s..t], 0, HasText(TableHeader)) == h
    ensures var ls, c := Split(doc), if s + h + 2 < t then s + h + 2 else t;
      Split(EditBy(doc, e, MonthAndIndustry)) == ls[..c] + Split(Row(e)) + ls[c..]
    ensures var c := if s + h + 2 < t then s + h + 2 else t;
      SingleLine(e) ==> Split(EditBy(doc, e, MonthAndIndustry)) == Insert(Split(doc), c, Row(e))
  {
    var ls, c := Split(doc), if s + h + 2 < t then s + h + 2 else t;
    SpliceKeepsOutside(doc, e, s, t);
    SpliceInsertsRow(ls, s, t, h, e);
    if SingleLine(e) {
      RowSingleLine(e);
      SplitSingle(Row(e));
      InsertIsSplice(ls, c, Row(e));
    }
  }

  lemma SpliceInsertsRow(ls: seq<string>, s: nat, t: nat, h: nat, e: Entry)
    requires NewlineFree(ls)
    requires s + h < t <= |ls| && FirstFrom(ls[s..t], 0, HasText(TableHeader)) == h
    ensures var c := if s + h + 2 < t then s + h + 2 else t;
      ls[..s] + Split(AddEntry(Join(ls[s..t]), e)) + ls[t..] == ls[..c] + Split(Row(e)) + ls[c..]
  {
    var sl := ls[s..t];
    var k' := if h + 2 < |sl| then h + 2 else |sl|;
    SliceNewlineFree(ls, s, t);
    SliceInsertsRow(sl, e, h);
    SpliceAt(ls, s, t, k', Split(Row(e)), Split(AddEntry(Join(sl), e)));
  }

  lemma SliceNewlineFree(ls: seq<string>, s: nat, t: nat)
    requires NewlineFree(ls) && s <= t <= |ls|
    ensures NewlineFree(ls[s..t])
  {
    forall j | 0 <= j < t - s ensures '\n' !in ls[s..t][j] {
      assert ls[s..t][j] == ls[s + j];
    }
  }

  /** Replacing lines `[s, t)` by themselves with `xs` inserted at `k` inserts `xs` at `s + k`. */
  lemma SpliceAt<T>(ls: seq<T>, s: nat, t: nat, k: nat, xs: seq<T>, mid: seq<T>)
    requires s <= t <= |ls| && k <= t - s
    requires mid == ls[s..t][..k] + xs + ls[s..t][k..]
    ensures ls[..s] + mid + ls[t..] == ls[..s + k] + xs + ls[s + k..]
  {
    SpliceRegroup(ls, s, t, k, xs);
  }

  lemma SliceInsertsRow(sl: seq<string>, e: Entry, h: nat)
    requires NewlineFree(sl)
    requires h < |sl| && FirstFrom(sl, 0, HasText(TableHeader)) == h
    ensures var k := if h + 2 < |sl| then h + 2 else |sl|;
      Split(AddEntry(Join(sl), e)) == sl[..k] + Split(Row(e)) + sl[k..]
  {
    var section := Join(sl);
    SplitJoin(sl);
    assert Split(section) == sl;
    assert Holds(HasText(TableHeader), sl[h]);
    assert forall j :: 0 <= j < h ==> !Contains(sl[j], TableHeader) by {
      forall j | 0 <= j < h ensures !Contains(sl[j], TableHeader) {
        assert !Holds(HasText(TableHeader), sl[j]);
      }
    }
    AddEntryInsertsRow(section, e, h);
  }

  lemma InsertIsSplice<T>(ls: seq<T>, k: nat, x: T)
    requires k <= |ls|
    ensures Insert(ls, k, x) == ls[..k] + [x] + ls[k..]
  {
    if k == |ls| {
      assert ls[..k] == ls && ls[k..] == [];
    }
  }

  lemma SpliceRegroup<T>(ls: seq<T>, s: nat, t: nat, k: nat, xs: seq<T>)
    requires s <= t <= |ls| && k <= t - s
    ensures ls[..s] + (ls[s..t][..k] + xs + ls[s..t][k..]) + ls[t..]
      == ls[..s + k] + xs + ls[s + k..]
  {
    assert ls[..s] + ls[s..t][..k] == ls[..s + k];
    assert ls[s..t][k..] + ls[t..] == ls[s + k..];
  }

  /** Splitting the text after a string was inserted as one list element gives the
      string's lines in its place. */
  lemma SplitInsert(ls: seq<string>, k: nat, x: string)
    requires NewlineFree(ls) && k <= |ls|
    ensures Split(Join(Insert(ls, k, x))) == ls[..k] + Split(x) + ls[k..]
  {
    InsertIsSplice(ls, k, x);
    SliceNewlineFree(ls, 0, k);
    SliceNewlineFree(ls, k, |ls|);
    assert ls[0..k] == ls[..k] && ls[k..|ls|] == ls[k..];
    SplitJoinAround(ls[..k], x, ls[k..]);
  }

  /** Splitting the text after a block of lines was inserted as one list element gives
      the block's lines in its place. */
  lemma SplitInsertBlock(ls: seq<string>, k: nat, block: seq<string>)
    requires NewlineFree(ls) && NewlineFree(block) && |block| >= 1 && k <= |ls|
    ensures Split(Join(Insert(ls, k, Join(block)))) == ls[..k] + block + ls[k..]
  {
    SplitInsert(ls, k, Join(block));
    SplitJoin(block);
  }

  /** A new industry subsection holds no month heading: its lines are blank, the
      `#### ` heading and the table. */
  lemma IndustryBlockHasNoMonthHeading(e: Entry)
    ensures forall j :: 0 <= j < |IndustryBlockLines(e)| ==>
      !StartsWith(IndustryBlockLines(e)[j], "### ")
  {
    var b := IndustryBlockLines(e);
    assert b[2] == IndustryHeading(e) && b[2][3] == '#';
    assert b[4][0] == '|' && b[5][0] == '|' && b[6][0] == '|';
  }

  /** The new-industry branch inserts the subsection's lines at the end of the month
      section that holds the first line with the month pattern, and keeps every other
      line. */
  lemma NewIndustryInsertsBlock(doc: string, e: Entry)
    ensures var ls := Split(doc);
      var k := MonthInsertIndex(ls, MonthHeading(e));
      Split(EditBy(doc, e, NewIndustry)) == ls[..k] + Split(NewIndustryBlock(e)) + ls[k..]
    ensures var ls := Split(doc);
      var k := MonthInsertIndex(ls, MonthHeading(e));
      SingleLine(e) ==> Split(EditBy(doc, e, NewIndustry)) == ls[..k] + IndustryBlockLines(e) + ls[k..]
  {
    var ls := Split(doc);
    var k := MonthInsertIndex(ls, MonthHeading(e));
    SplitInsert(ls, k, NewIndustryBlock(e));
    if SingleLine(e) {
      BlockLinesNewlineFree(e);
      SplitInsertBlock(ls, k, IndustryBlockLines(e));
    }
  }

  /** The new-industry branch lands below a line holding the month pattern and does not
      repeat the month heading. */
  lemma NewIndustryKeepsMonth(doc: string, e: Entry)
    requires Contains(doc, MonthHeading(e)) && SingleLine(e)
    ensures var ls := Split(doc);
      (exists i :: 0 <= i < MonthInsertIndex(ls, MonthHeading(e)) && Contains(ls[i], MonthHeading(e)))
      && multiset(Split(EditBy(doc, e, NewIndustry)))[MonthHeading(e)] == multiset(ls)[MonthHeading(e)]
  {
    var ls := Split(doc);
    var k := MonthInsertIndex(ls, MonthHeading(e));
    NewIndustryInsertsBlock(doc, e);
    MonthLineBeforeInsert(doc, e, k);
    IndustryBlockHasNoMonthHeading(e);
    BlockKeepsCount(ls, k, IndustryBlockLines(e), MonthHeading(e));
  }

  lemma MonthLineBeforeInsert(doc: string, e: Entry, k: nat)
    requires Contains(doc, MonthHeading(e)) && SingleLine(e)
    requires k == MonthInsertIndex(Split(doc), MonthHeading(e))
    ensures exists i :: 0 <= i < k && Contains(Split(doc)[i], MonthHeading(e))
  {
    var ls := Split(doc);
    RowSingleLine(e);
    JoinSplit(doc);
    ContainsSomeLine(ls, MonthHeading(e));
    var i := FirstFrom(ls, 0, HasText(MonthHeading(e)));
    assert i < |ls|;
  }

  /** Inserting lines none of which is `x` keeps the number of lines equal to `x`. */
  lemma BlockKeepsCount(ls: seq<string>, k: nat, block: seq<string>, x: string)
    requires k <= |ls|
    requires forall j :: 0 <= j < |block| ==> !StartsWith(block[j], "### ")
    requires StartsWith(x, "### ")
    ensures multiset(ls[..k] + block + ls[k..])[x] == multiset(ls)[x]
  {
    assert x !in block;
    assert ls[..k] + ls[k..] == ls;
  }

  /** The new-month branch inserts the month section just before the first `## `
      heading after the latest-news heading (or at the end), and keeps every other line. */
  lemma NewMonthInsertsBlock(doc: string, e: Entry)
    requires Contains(doc, LatestHeading)
    ensures var ls := Split(doc);
      var k := TopInsertIndex(ls);
      Split(EditBy(doc, e, NewMonth)) == ls[..k] + Split(NewMonthBlock(e)) + ls[k..]
    ensures var ls := Split(doc);
      var k := TopInsertIndex(ls);
      SingleLine(e) ==> Split(EditBy(doc, e, NewMonth)) == ls[..k] + MonthBlockLines(e) + ls[k..]
  {
    var ls := Split(doc);
    var k := TopInsertIndex(ls);
    SplitInsert(ls, k, NewMonthBlock(e));
    if SingleLine(e) {
      BlockLinesNewlineFree(e);
      SplitInsertBlock(ls, k, MonthBlockLines(e));
    }
  }

  /** After the new-month branch the document holds the month heading on exactly one line. */
  lemma NewMonthHeadingUnique(doc: string, e: Entry)
    requires !Contains(doc, MonthHeading(e)) && Contains(doc, LatestHeading) && SingleLine(e)
    ensures multiset(Split(EditBy(doc, e, NewMonth)))[MonthHeading(e)] == 1
  {
    NewMonthInsertsBlock(doc, e);
    NoMonthLine(doc, e);
    MonthBlockCount(Split(doc), TopInsertIndex(Split(doc)), e);
  }

  lemma NoMonthLine(doc: string, e: Entry)
    requires !Contains(doc, MonthHeading(e))
    ensures MonthHeading(e) !in Split(doc)
  {
    var ls := Split(doc);
    JoinSplit(doc);
    if MonthHeading(e) in ls {
      var i :| 0 <= i < |ls| && ls[i] == MonthHeading(e);
      ContainsLine(ls, i);
    }
  }

  lemma MonthBlockCount(ls: seq<string>, k: nat, e: Entry)
    requires k <= |ls| && MonthHeading(e) !in ls
    ensures multiset(ls[..k] + MonthBlockLines(e) + ls[k..])[MonthHeading(e)] == 1
  {
    MonthBlockHeadingOnce(e);
    SpliceCount(ls, k, MonthBlockLines(e), MonthHeading(e));
  }

  lemma MonthBlockHeadingOnce(e: Entry)
    ensures multiset(MonthBlockLines(e))[MonthHeading(e)] == 1
  {
    var m := MonthHeading(e);
    var rest := [""] + IndustryLines(e) + [""];
    assert MonthBlockLines(e) == ["", ""] + [m] + rest;
    assert rest == ["", IndustryHeading(e), "", TableHeader, TableSeparator, Row(e), ""];
    assert m[0] == '#' && m[3] == ' ' && IndustryHeading(e)[3] == '#';
    assert TableHeader[0] == '|' && TableSeparator[0] == '|' && Row(e)[0] == '|';
    CountOnce(["", ""], m, rest);
  }

  /** An element found only in the middle of a sequence occurs there once. */
  lemma CountOnce<T>(pre: seq<T>, x: T, post: seq<T>)
    requires x !in pre && x !in post
    ensures multiset(pre + [x] + post)[x] == 1
  {
    assert multiset(pre + [x] + post) == multiset(pre) + multiset([x]) + multiset(post);
  }

  /** Splicing a block into a sequence adds the block's occurrences of `x` to its own. */
  lemma SpliceCount<T>(ls: seq<T>, k: nat, block: seq<T>, x: T)
    requires k <= |ls|
    ensures multiset(ls[..k] + block + ls[k..])[x] == multiset(ls)[x] + multiset(block)[x]
  {
    calc {
      multiset(ls[..k] + block + ls[k..]);
      multiset(ls[..k]) + multiset(block) + multiset(ls[k..]);
      { assert ls[..k] + ls[k..] == ls; }
      multiset(ls) + multiset(block);
    }
  }

  /** Which branch runs is decided by the two substring tests alone. */
  lemma BranchDependsOnlyOnTests(d1: string, e1: Entry, d2: string, e2: Entry)
    requires Contains(d1, MonthHeading(e1)) == Contains(d2, MonthHeading(e2))
    requires Contains(d1, IndustryHeading(e1)) == Contains(d2, IndustryHeading(e2))
    ensures SelectBranch(d1, e1) == SelectBranch(d2, e2)
  {
  }

  /** Text inserted as one list element is contained in the joined result. */
  lemma InsertedContains(ls: seq<string>, k: nat, block: seq<string>, i: nat)
    requires i < |block|
    ensures Contains(Join(Insert(ls, k, Join(block))), block[i])
  {
    var ins := Insert(ls, k, Join(block));
    ContainsLine(ins, if k < |ls| then k else |ls|);
    ContainsLine(block, i);
    ContainsTransitive(Join(ins), Join(block), block[i]);
  }

  /** Whatever the original lines contain, the text with a block inserted still contains. */
  lemma InsertKeepsContains(ls: seq<string>, k: nat, x: string, p: string)
    requires |ls| >= 1 && '\n' !in p && Contains(Join(ls), p)
    ensures Contains(Join(Insert(ls, k, x)), p)
  {
    ContainsSomeLine(ls, p);
    var i :| 0 <= i < |ls| && Contains(ls[i], p);
    var ins := Insert(ls, k, x);
    var c := if k < |ls| then k else |ls|;
    var j := if i < c then i else i + 1;
    assert ins[j] == ls[i];
    ContainsLine(ins, j);
    ContainsTransitive(Join(ins), ls[i], p);
  }

  /** Round trip: once the new-month branch has created a month, the next entry of that
      month no longer takes the new-month branch, and one of the same industry too is
      added to the subsection just created. */
  lemma NewMonthThenSameMonth(doc: string, e1: Entry, e2: Entry)
    requires SelectBranch(doc, e1) == NewMonth && Contains(doc, LatestHeading)
    requires MonthOf(e2.date) == MonthOf(e1.date)
    ensures SelectBranch(Edit(doc, e1), e2) != NewMonth
    ensures e2.industry == e1.industry ==> SelectBranch(Edit(doc, e1), e2) == MonthAndIndustry
  {
    var ls := Split(doc);
    var b := MonthBlockLines(e1);
    assert Edit(doc, e1) == Join(Insert(ls, TopInsertIndex(ls), Join(b)));
    InsertedContains(ls, TopInsertIndex(ls), b, 2);
    InsertedContains(ls, TopInsertIndex(ls), b, 4);
  }

  /** Round trip: once the new-industry branch has created a subsection, the next entry
      of the same month and industry is added to it. */
  lemma NewIndustryThenSameIndustry(doc: string, e1: Entry, e2: Entry)
    requires SelectBranch(doc, e1) == NewIndustry && '\n' !in e1.date
    requires MonthOf(e2.date) == MonthOf(e1.date) && e2.industry == e1.industry
    ensures SelectBranch(Edit(doc, e1), e2) == MonthAndIndustry
  {
    NewIndustryContainsBoth(doc, e1);
    assert MonthHeading(e2) == MonthHeading(e1) && IndustryHeading(e2) == IndustryHeading(e1);
  }

  /** After the new-industry branch the text holds both the month and the industry heading. */
  lemma NewIndustryContainsBoth(doc: string, e: Entry)
    requires Contains(doc, MonthHeading(e)) && '\n' !in e.date
    ensures var ed := EditBy(doc, e, NewIndustry);
      Contains(ed, MonthHeading(e)) && Contains(ed, IndustryHeading(e))
  {
    var ls := Split(doc);
    var b := IndustryBlockLines(e);
    var k := MonthInsertIndex(ls, MonthHeading(e));
    assert EditBy(doc, e, NewIndustry) == Join(Insert(ls, k, Join(b)));
    assert b[2] == IndustryHeading(e);
    InsertedContains(ls, k, b, 2);
    JoinSplit(doc);
    MonthHeadingSingleLine(e);
    InsertKeepsContains(ls, k, Join(b), MonthHeading(e));
  }

  lemma MonthHeadingSingleLine(e: Entry)
    requires '\n' !in e.date
    ensures '\n' !in MonthHeading(e)
  {
    var m := MonthOf(e.date);
    assert forall i :: 0 <= i < |m| ==> m[i] == e.date[i];
  }

  /** The footer line written with an earlier timestamp is rewritten to the new one. */
  lemma FooterStampReplaced(earlier: string, stamp: string)
    ensures RewriteFooterLine(FooterLine(earlier), stamp) == FooterLine(stamp)
  {
    var line := FooterLine(earlier);
    var rest := " " + earlier + "*";
    assert line == FooterPrefix + rest;
    FindAtStart(line, FooterPrefix);
    assert line[|FooterPrefix|..] == rest;
    RFindLast(rest, '*');
    assert RewriteFooterLine(line, stamp) == line[..0] + FooterLine(stamp) + rest[|rest|..];
    assert line[..0] == [] && rest[|rest|..] == [];
  }

  lemma FindAtStart(s: string, p: string)
    requires StartsWith(s, p)
    ensures Find(s, p) == 0
  {
  }

  lemma RFindLast(s: string, c: char)
    requires |s| > 0 && s[|s| - 1] == c
    ensures RFind(s, c) == |s| - 1
  {
  }

  /** A line without the footer prefix is left as it is; a rewritten line holds no newline
      when neither it nor the timestamp does. */
  lemma RewriteFooterLineShape(line: string, stamp: string)
    ensures !Contains(line, FooterPrefix) ==> RewriteFooterLine(line, stamp) == line
    ensures '\n' !in line && '\n' !in stamp ==> '\n' !in RewriteFooterLine(line, stamp)
  {
    var p := Find(line, FooterPrefix);
    if p != -1 {
      var rest := line[p + |FooterPrefix|..];
      var q := RFind(rest, '*');
      if q != -1 && '\n' !in line && '\n' !in stamp {
        SliceKeepsOut(line, 0, p, '\n');
        SliceKeepsOut(line, p + |FooterPrefix|, |line|, '\n');
        SliceKeepsOut(rest, q + 1, |rest|, '\n');
        assert '\n' !in FooterPrefix;
        assert '\n' !in FooterLine(stamp);
      }
    }
  }

  lemma SliceKeepsOut(s: string, a: nat, b: nat, c: char)
    requires a <= b <= |s| && c !in s
    ensures c !in s[a..b]
  {
  }

  /** The footer rewrite keeps the number of lines and every line without the footer prefix. */
  lemma RewriteFooterKeepsLines(doc: string, stamp: string)
    requires '\n' !in stamp
    ensures var ls := Split(doc);
      var rs := Split(RewriteFooter(doc, stamp));
      |rs| == |ls| && (forall i :: 0 <= i < |ls| ==> rs[i] == RewriteFooterLine(ls[i], stamp))
      && forall i :: 0 <= i < |ls| && !Contains(ls[i], FooterPrefix) ==> rs[i] == ls[i]
  {
    var ls := Split(doc);
    var out := seq(|ls|, i requires 0 <= i < |ls| => RewriteFooterLine(ls[i], stamp));
    forall i | 0 <= i < |ls|
      ensures '\n' !in out[i]
      ensures !Contains(ls[i], FooterPrefix) ==> out[i] == ls[i]
    {
      RewriteFooterLineShape(ls[i], stamp);
    }
    SplitJoin(out);
  }

  /** A missing or empty report is replaced by the scaffold; any other is edited. */
  lemma ScaffoldOnlyWhenEmpty(readme: Option<string>, e: Entry, stamp: string)
    ensures Update(readme, e, stamp).Created? <==> readme.None? || readme.value == ""
    ensures Update(readme, e, stamp).Created? ==> Update(readme, e, stamp).text == Scaffold(e, stamp)
  {
  }

  /** The scaffold's lines: the latest-news heading, the month heading, the industry
      subsection with a one-row table ending at the `## ` heading of the category list,
      and the footer line. */
  lemma ScaffoldShape(e: Entry, stamp: string)
    requires SingleLine(e) && '\n' !in stamp
    ensures var ls := ScaffoldLines(e, stamp);
      Split(Scaffold(e, stamp)) == ls && |ls| == 44
      && ls[4] == LatestHeading && ls[6] == MonthHeading(e)
      && ls[8..14] == [IndustryHeading(e), ""] + TableLines(e) + [""]
      && StartsWith(ls[14], "## ") && ls[42] == FooterLine(stamp)
  {
    var ls := ScaffoldLines(e, stamp);
    RowSingleLine(e);
    BlockLinesNewlineFree(e);
    ScaffoldHeadNewlineFree();
    CategoryLinesNewlineFree();
    assert '\n' !in FooterLine(stamp);
    var a := ScaffoldHead + [MonthHeading(e), ""];
    NewlineFreeAppend(ScaffoldHead, [MonthHeading(e), ""]);
    NewlineFreeAppend(a, IndustryLines(e));
    NewlineFreeAppend(a + IndustryLines(e), [""]);
    NewlineFreeAppend(a + IndustryLines(e) + [""], CategoryLines);
    NewlineFreeAppend(a + IndustryLines(e) + [""] + CategoryLines, [FooterLine(stamp), ""]);
    SplitJoin(ls);
    assert |ScaffoldHead| == 6 && ScaffoldHead[4] == LatestHeading;
    assert |CategoryLines| == 28 && StartsWith(CategoryLines[0], "## ");
  }

  /** A line that does not start with `####` cannot be an industry heading. */
  predicate NotIndustryLike(x: string) {
    |x| < 4 || x[0] != '#' || x[1] != '#' || x[2] != '#' || x[3] != '#'
  }

  /** A line that does not start with `### ` and a digit cannot be the month heading of a
      date that starts with a digit. */
  predicate NotMonthLike(x: string) {
    |x| < 5 || x[0] != '#' || x[1] != '#' || x[2] != '#' || x[3] != ' ' || !('0' <= x[4] <= '9')
  }

  lemma ScaffoldPartsNotHeadingLike()
    ensures forall i | 0 <= i < |ScaffoldHead| :: NotIndustryLike(ScaffoldHead[i])
    ensures forall i | 0 <= i < |CategoryLines| :: NotIndustryLike(CategoryLines[i])
    ensures forall i | 0 <= i < |ScaffoldHead| :: NotMonthLike(ScaffoldHead[i])
    ensures forall i | 0 <= i < |CategoryLines| :: NotMonthLike(CategoryLines[i])
    ensures |ScaffoldHead| == 6 && |CategoryLines| == 28 && StartsWith(CategoryLines[0], "## ")
  {
  }

  /** Below its heading, a new subsection holds blank lines and table lines only. */
  lemma IndustryLinesBody(e: Entry)
    ensures |IndustryLines(e)| == 5 && IndustryLines(e)[0] == IndustryHeading(e)
    ensures forall j | 1 <= j < 5 :: IndustryLines(e)[j] == "" || IndustryLines(e)[j][0] == '|'
  {
    assert TableHeader[0] == '|' && TableSeparator[0] == '|' && Row(e)[0] == '|';
  }

  /** In the scaffold, no line but line 8 looks like an industry heading, and no line but
      line 6 like the month heading of a date that starts with a digit. */
  lemma ScaffoldOtherLines(e: Entry, stamp: string)
    ensures var ls := ScaffoldLines(e, stamp);
      |ls| == 44 && forall j | 0 <= j < |ls| && j != 8 :: NotIndustryLike(ls[j])
    ensures var ls := ScaffoldLines(e, stamp);
      forall j | 0 <= j < |ls| && j != 6 :: NotMonthLike(ls[j])
  {
    var ls := ScaffoldLines(e, stamp);
    ScaffoldPartsNotHeadingLike();
    IndustryLinesBody(e);
    forall j | 0 <= j < |ls|
      ensures j != 8 ==> NotIndustryLike(ls[j])
      ensures j != 6 ==> NotMonthLike(ls[j])
    {
      if j < 8 {
        ScaffoldLineAbove(e, stamp, j);
      } else if j < 14 {
        ScaffoldLineInside(e, stamp, j);
      } else {
        ScaffoldLineBelow(e, stamp, j);
      }
    }
  }

  lemma ScaffoldLineAbove(e: Entry, stamp: string, j: nat)
    requires j < 8
    ensures j < |ScaffoldLines(e, stamp)| && NotIndustryLike(ScaffoldLines(e, stamp)[j])
    ensures j != 6 ==> NotMonthLike(ScaffoldLines(e, stamp)[j])
  {
    ScaffoldPartsNotHeadingLike();
    var a := ScaffoldHead + [MonthHeading(e), ""];
    assert ScaffoldLines(e, stamp)[..8] == a;
    if j < 6 {
      assert a[j] == ScaffoldHead[j];
    } else {
      assert NotIndustryLike(MonthHeading(e)) by { assert MonthHeading(e)[3] == ' '; }
    }
  }

  lemma ScaffoldLineInside(e: Entry, stamp: string, j: nat)
    requires 8 <= j < 14
    ensures j < |ScaffoldLines(e, stamp)| && NotMonthLike(ScaffoldLines(e, stamp)[j])
    ensures j != 8 ==> NotIndustryLike(ScaffoldLines(e, stamp)[j])
  {
    ScaffoldPartsNotHeadingLike();
    IndustryLinesBody(e);
    var b := ScaffoldHead + [MonthHeading(e), ""] + IndustryLines(e) + [""];
    assert ScaffoldLines(e, stamp)[..14] == b;
    if j == 8 {
      assert b[8] == IndustryHeading(e) && IndustryHeading(e)[3] == '#';
    } else if j < 13 {
      assert b[j] == IndustryLines(e)[j - 8];
    }
  }

  lemma ScaffoldLineBelow(e: Entry, stamp: string, j: nat)
    requires 14 <= j < 44
    ensures j < |ScaffoldLines(e, stamp)| && NotIndustryLike(ScaffoldLines(e, stamp)[j])
    ensures NotMonthLike(ScaffoldLines(e, stamp)[j])
  {
    ScaffoldPartsNotHeadingLike();
    IndustryLinesBody(e);
    var b := ScaffoldHead + [MonthHeading(e), ""] + IndustryLines(e) + [""];
    var c := CategoryLines + [FooterLine(stamp), ""];
    assert ScaffoldLines(e, stamp) == b + c;
    assert ScaffoldLines(e, stamp)[j] == c[j - 14];
    if j < 42 {
      assert c[j - 14] == CategoryLines[j - 14];
    } else {
      assert NotIndustryLike(FooterLine(stamp)) && NotMonthLike(FooterLine(stamp)) by {
        assert FooterLine(stamp)[0] == '*';
      }
    }
  }

  /** In the scaffold, the entry's industry subsection is lines 8 to 13: it ends at the
      `## ` heading of the category list. */
  lemma ScaffoldIndustrySlice(e: Entry, stamp: string)
    ensures IndustrySlice(ScaffoldLines(e, stamp), IndustryHeading(e)) == Some((8, 14))
  {
    var ls := ScaffoldLines(e, stamp);
    var h := IndustryHeading(e);
    ScaffoldOtherLines(e, stamp);
    ScaffoldPartsNotHeadingLike();
    IndustryLinesBody(e);
    var b := ScaffoldHead + [MonthHeading(e), ""] + IndustryLines(e) + [""];
    assert ls == b + CategoryLines + [FooterLine(stamp), ""];
    assert |b| == 14 && ls[8] == h;
    assert !NotIndustryLike(h);
    forall j | 0 <= j < |ls| && j != 8
      ensures !Holds(IsLine(h), ls[j])
    {
      assert NotIndustryLike(ls[j]);
    }
    FirstFromIs(ls, 0, IsLine(h), 8);
    forall j | 9 <= j < 14
      ensures !Holds(IndustryBoundary(h), ls[j])
    {
      if j < 13 {
        assert ls[j] == IndustryLines(e)[j - 8];
      }
    }
    assert ls[14] == CategoryLines[0];
    assert Holds(IndustryBoundary(h), ls[14]) by {
      assert NotIndustryLike(ls[14]);
    }
    FirstFromIs(ls, 9, IndustryBoundary(h), 14);
    LastBeforeIs(ls, 14, IsLine(h), 8);
  }

  lemma ScaffoldTableAt(e: Entry, stamp: string)
    requires !Contains(IndustryHeading(e), TableHeader)
    ensures FirstFrom(ScaffoldLines(e, stamp)[8..14], 0, HasText(TableHeader)) == 2
  {
    var a := ScaffoldHead + [MonthHeading(e), ""];
    var b := IndustryLines(e) + [""];
    assert ScaffoldLines(e, stamp) == a + b + (CategoryLines + [FooterLine(stamp), ""]);
    assert |a| == 8 && |b| == 6;
    var sl := ScaffoldLines(e, stamp)[8..14];
    assert sl == b;
    assert StartsWith(TableHeader, TableHeader);
    assert !Contains(sl[1], TableHeader);
    FirstFromIs(sl, 0, HasText(TableHeader), 2);
  }

  /** Round trip: a second entry of the same month and industry, added to the report just
      created, goes into the scaffold's table at line 12, right below its separator and
      above the first entry's row (line 12 of the scaffold, see ScaffoldKeyLines), and no
      other line moves. */
  lemma ScaffoldThenSameSection(e1: Entry, e2: Entry, stamp: string)
    requires SingleLine(e1) && SingleLine(e2) && '\n' !in stamp
    requires MonthOf(e2.date) == MonthOf(e1.date) && e2.industry == e1.industry
    requires !Contains(IndustryHeading(e1), TableHeader)
    ensures var doc := Scaffold(e1, stamp);
      Split(Edit(doc, e2)) == Insert(Split(doc), 12, Row(e2))
  {
    ScaffoldEditFacts(e1, e2, stamp);
    UpdateInsertsOneRow(Scaffold(e1, stamp), e2, 8, 14, 2);
  }

  lemma ScaffoldEditFacts(e1: Entry, e2: Entry, stamp: string)
    requires SingleLine(e1) && '\n' !in stamp
    requires MonthOf(e2.date) == MonthOf(e1.date) && e2.industry == e1.industry
    requires !Contains(IndustryHeading(e1), TableHeader)
    ensures var doc := Scaffold(e1, stamp);
      SelectBranch(doc, e2) == MonthAndIndustry && |Split(doc)| == 44
      && IndustrySlice(Split(doc), IndustryHeading(e2)) == Some((8, 14))
      && FirstFrom(Split(doc)[8..14], 0, HasText(TableHeader)) == 2
  {
    var ls := ScaffoldLines(e1, stamp);
    ScaffoldShape(e1, stamp);
    ContainsLine(ls, 6);
    ContainsLine(ls, 8);
    ScaffoldIndustrySlice(e1, stamp);
    ScaffoldTableAt(e1, stamp);
  }

  /** The lines of the created report that the second run relies on. */
  lemma ScaffoldKeyLines(e: Entry, stamp: string)
    requires SingleLine(e) && '\n' !in stamp
    ensures var ls := Split(Scaffold(e, stamp));
      |ls| == 44 && ls[6] == MonthHeading(e) && ls[8] == IndustryHeading(e)
      && ls[12] == Row(e) && ls[42] == FooterLine(stamp)
  {
    ScaffoldShape(e, stamp);
    var ls := ScaffoldLines(e, stamp);
    assert ls[8] == ls[8..14][0] && ls[12] == ls[8..14][4];
  }

  /** Second run on the report the first run created, with an entry of the same month and
      industry: one row more, the new row above the first one in the same table, the
      month and industry headings where they were and on no other line (the month
      heading for a date that starts with a digit), and the footer carrying the new
      timestamp. */
  lemma ScaffoldSecondRun(e1: Entry, e2: Entry, t1: string, t2: string)
    requires SingleLine(e1) && SingleLine(e2) && '\n' !in t1 && '\n' !in t2
    requires MonthOf(e2.date) == MonthOf(e1.date) && e2.industry == e1.industry
    requires !Contains(IndustryHeading(e1), TableHeader)
    requires !Contains(MonthHeading(e1), FooterPrefix) && !Contains(IndustryHeading(e1), FooterPrefix)
    requires !Contains(Row(e1), FooterPrefix) && !Contains(Row(e2), FooterPrefix)
    ensures Update(Some(Scaffold(e1, t1)), e2, t2).Updated?
    ensures var out := Split(Update(Some(Scaffold(e1, t1)), e2, t2).text);
      |out| == 45 && out[6] == MonthHeading(e1) && out[8] == IndustryHeading(e1)
      && out[12] == Row(e2) && out[13] == Row(e1) && out[43] == FooterLine(t2)
    ensures var out := Split(Update(Some(Scaffold(e1, t1)), e2, t2).text);
      multiset(out)[IndustryHeading(e1)] == 1
    ensures var out := Split(Update(Some(Scaffold(e1, t1)), e2, t2).text);
      |e1.date| > 0 && '0' <= e1.date[0] <= '9' ==> multiset(out)[MonthHeading(e1)] == 1
  {
    var doc := Scaffold(e1, t1);
    ScaffoldKeyLines(e1, t1);
    ScaffoldSplitOtherLines(e1, t1);
    assert doc != "" by {
      assert Split("") == [""];
    }
    ScaffoldThenSameSection(e1, e2, t1);
    var ed := Edit(doc, e2);
    RewriteFooterKeepsLines(ed, t2);
    FooterStampReplaced(t1, t2);
    SecondRunLines(Split(doc), Split(ed), Split(RewriteFooter(ed, t2)), e1, e2, t1, t2);
    SecondRunCounts(Split(doc), Split(ed), Split(RewriteFooter(ed, t2)), e1, e2, t2);
  }

  /** The rewrite only replaces text from a `*` on, so it cannot make a line start like a
      heading. */
  lemma RewriteKeepsPlain(line: string, stamp: string)
    ensures NotIndustryLike(line) ==> NotIndustryLike(RewriteFooterLine(line, stamp))
    ensures NotMonthLike(line) ==> NotMonthLike(RewriteFooterLine(line, stamp))
  {
    var p := Find(line, FooterPrefix);
    if p != -1 {
      var rest := line[p + |FooterPrefix|..];
      var q := RFind(rest, '*');
      if q != -1 {
        PlainUpToStar(line, p, FooterLine(stamp), rest[q + 1..]);
      }
    }
  }

  /** A line that agrees with a plain line up to a `*` is plain. */
  lemma PlainUpToStar(line: string, p: nat, f: string, tail: string)
    requires p <= |line| && |f| > 0 && f[0] == '*'
    ensures NotIndustryLike(line) ==> NotIndustryLike(line[..p] + f + tail)
    ensures NotMonthLike(line) ==> NotMonthLike(line[..p] + f + tail)
  {
    var r := line[..p] + f + tail;
    assert r[p] == '*';
    assert forall i :: 0 <= i < p ==> r[i] == line[i];
  }

  /** The created report's lines, as `ScaffoldOtherLines` describes them. */
  lemma ScaffoldSplitOtherLines(e: Entry, stamp: string)
    requires SingleLine(e) && '\n' !in stamp
    ensures var ls := Split(Scaffold(e, stamp));
      |ls| == 44 && (forall j | 0 <= j < |ls| && j != 8 :: NotIndustryLike(ls[j]))
      && forall j | 0 <= j < |ls| && j != 6 :: NotMonthLike(ls[j])
  {
    ScaffoldShape(e, stamp);
    ScaffoldOtherLines(e, stamp);
  }

  /** After the second run each heading is on one line only: every other line of the
      scaffold, and the new row, start unlike a heading, and the footer rewrite keeps it so. */
  lemma SecondRunCounts(ls: seq<string>, ed: seq<string>, out: seq<string>,
                        e1: Entry, e2: Entry, t2: string)
    requires |ls| == 44
    requires forall j | 0 <= j < |ls| && j != 8 :: NotIndustryLike(ls[j])
    requires forall j | 0 <= j < |ls| && j != 6 :: NotMonthLike(ls[j])
    requires ed == Insert(ls, 12, Row(e2))
    requires |out| == |ed| && forall i :: 0 <= i < |ed| ==> out[i] == RewriteFooterLine(ed[i], t2)
    requires out[6] == MonthHeading(e1) && out[8] == IndustryHeading(e1)
    ensures multiset(out)[IndustryHeading(e1)] == 1
    ensures |e1.date| > 0 && '0' <= e1.date[0] <= '9' ==> multiset(out)[MonthHeading(e1)] == 1
  {
    var hi, hm := IndustryHeading(e1), MonthHeading(e1);
    forall j | 0 <= j < |out|
      ensures j != 8 ==> NotIndustryLike(out[j])
      ensures j != 6 ==> NotMonthLike(out[j])
    {
      RewriteKeepsPlain(ed[j], t2);
      if j == 12 {
        assert ed[j] == Row(e2) && Row(e2)[0] == '|';
      } else if j > 12 {
        assert ed[j] == ls[j - 1];
      }
    }
    assert !NotIndustryLike(hi) by { assert hi[..4] == "####"; }
    OnlyAt(out, 8, hi, NotIndustryLike);
    if |e1.date| > 0 && '0' <= e1.date[0] <= '9' {
      assert !NotMonthLike(hm) by {
        assert hm[4] == MonthOf(e1.date)[0] == e1.date[0];
      }
      OnlyAt(out, 6, hm, NotMonthLike);
    }
  }

  /** An element at index `i` that no other element can equal occurs exactly once. */
  lemma OnlyAt<T>(s: seq<T>, i: nat, x: T, other: T -> bool)
    requires i < |s| && s[i] == x && !other(x)
    requires forall j | 0 <= j < |s| && j != i :: other(s[j])
    ensures multiset(s)[x] == 1
  {
    assert s == s[..i] + [x] + s[i + 1..];
    forall k | 0 <= k < i ensures s[..i][k] != x { assert s[..i][k] == s[k]; }
    var tail := s[i + 1..];
    forall k | 0 <= k < |tail| ensures tail[k] != x { assert tail[k] == s[i + 1 + k]; }
    CountOnce(s[..i], x, s[i + 1..]);
  }

  lemma SecondRunLines(ls: seq<string>, ed: seq<string>, out: seq<string>,
                       e1: Entry, e2: Entry, t1: string, t2: string)
    requires |ls| == 44 && ls[6] == MonthHeading(e1) && ls[8] == IndustryHeading(e1)
    requires ls[12] == Row(e1) && ls[42] == FooterLine(t1)
    requires ed == Insert(ls, 12, Row(e2))
    requires |out| == |ed| && forall i :: 0 <= i < |ed| ==> out[i] == RewriteFooterLine(ed[i], t2)
    requires RewriteFooterLine(FooterLine(t1), t2) == FooterLine(t2)
    requires !Contains(MonthHeading(e1), FooterPrefix) && !Contains(IndustryHeading(e1), FooterPrefix)
    requires !Contains(Row(e1), FooterPrefix) && !Contains(Row(e2), FooterPrefix)
    ensures |out| == 45 && out[6] == MonthHeading(e1) && out[8] == IndustryHeading(e1)
      && out[12] == Row(e2) && out[13] == Row(e1) && out[43] == FooterLine(t2)
  {
    RewriteFooterLineShape(MonthHeading(e1), t2);
    RewriteFooterLineShape(IndustryHeading(e1), t2);
    RewriteFooterLineShape(Row(e1), t2);
    RewriteFooterLineShape(Row(e2), t2);
  }

  /** Round trip: after the new-month branch, an entry of the same month whose industry is
      not in the report takes the new-industry branch, and the month heading still
      appears on exactly one line. */
  lemma NewMonthThenNewIndustry(doc: string, e1: Entry, e2: Entry)
    requires SelectBranch(doc, e1) == NewMonth && Contains(doc, LatestHeading)
    requires SingleLine(e1) && SingleLine(e2) && MonthOf(e2.date) == MonthOf(e1.date)
    requires !Contains(Edit(doc, e1), IndustryHeading(e2))
    ensures SelectBranch(Edit(doc, e1), e2) == NewIndustry
    ensures multiset(Split(Edit(Edit(doc, e1), e2)))[MonthHeading(e1)] == 1
  {
    NewMonthThenSameMonth(doc, e1, e2);
    NewMonthHeadingUnique(doc, e1);
    NewIndustryKeepsMonth(Edit(doc, e1), e2);
  }
}

=== FILE: scan.dfy ===
/** "First index such that" and "last index such that" over the lines of a document:
    the searches that the updater's `for ... break` loops perform. */
module Scan {
  import opened Text

  /** The tests a line is searched for. */
  datatype LineTest =
    | IsLine(text: string)             // `line == text`
    | HasText(text: string)            // `text in line`
    | IndustryBoundary(heading: string)
      // a line other than `heading` that starts with `#### ` or `## `
    | MonthBoundary                    // starts with `### ` or `## `
    | TopBoundary                      // starts with `## ` and not with `### `

  predicate Holds(t: LineTest, line: string) {
    match t
    case IsLine(x) => line == x
    case HasText(x) => Contains(line, x)
    case IndustryBoundary(h) => line != h && (StartsWith(line, "#### ") || StartsWith(line, "## "))
    case MonthBoundary => StartsWith(line, "### ") || StartsWith(line, "## ")
    case TopBoundary => StartsWith(line, "## ") && !StartsWith(line, "### ")
  }

  /** The first index `r >= i` whose line passes `t`, or `|ls|` when there is none. */
  function FirstFrom(ls: seq<string>, i: nat, t: LineTest): (r: nat)
    requires i <= |ls|
    ensures i <= r <= |ls|
    ensures r < |ls| ==> Holds(t, ls[r])
    ensures forall j :: i <= j < r ==> !Holds(t, ls[j])
    decreases |ls| - i
  {
    if i == |ls| then i
    else if Holds(t, ls[i]) then i
    else FirstFrom(ls, i + 1, t)
  }

  /** The last index `r < j` whose line passes `t`, or -1 when there is none. */
  function LastBefore(ls: seq<string>, j: nat, t: LineTest): (r: int)
    requires j <= |ls|
    ensures -1 <= r < j
    ensures r >= 0 ==> Holds(t, ls[r])
    ensures forall k :: r < k < j ==> !Holds(t, ls[k])
    decreases j
  {
    if j == 0 then -1
    else if Holds(t, ls[j - 1]) then j - 1
    else LastBefore(ls, j - 1, t)
  }

  /** The contract of `FirstFrom` determines its result. */
  lemma FirstFromIs(ls: seq<string>, i: nat, t: LineTest, r: nat)
    requires i <= r <= |ls|
    requires r < |ls| ==> Holds(t, ls[r])
    requires forall j :: i <= j < r ==> !Holds(t, ls[j])
    ensures FirstFrom(ls, i, t) == r
  {
  }

  /** The contract of `LastBefore` determines its result. */
  lemma LastBeforeIs(ls: seq<string>, j: nat, t: LineTest, r: int)
    requires -1 <= r < j <= |ls|
    requires r >= 0 ==> Holds(t, ls[r])
    requires forall k :: r < k < j ==> !Holds(t, ls[k])
    ensures LastBefore(ls, j, t) == r
  {
  }
}

=== FILE: sections.dfy ===
/** The report updater of scripts/update_readme.py as functions of its inputs:
    where each branch edits the document and what it puts there. The methods
    in module Updater, which keep the source's loops, are proved equal to these
    functions, and module Properties proves what the functions promise. */
module Sections {
  import opened Wrappers
  import opened Text
  import opened Scan
  import opened Layout

  /** `add_entry_to_month(section, e)`: insert the row two lines below the first line
      that holds the table header, or append a new one-row table when no line does. */
  function AddEntry(section: string, e: Entry): string {
    var ls := Split(section);
    var h := FirstFrom(ls, 0, HasText(TableHeader));
    if h == |ls| then section + NewTableSuffix(e)
    else Join(Insert(ls, h + 2, Row(e)))
  }

  /** The lines `[start, end)` that the month-and-industry branch hands to
      `add_entry_to_month`, or None when no line is exactly `heading`. The scan starts
      at the first `heading` line, moves its start to any later `heading` line, and
      stops at the first other line starting with `#### ` or `## `. */
  function IndustrySlice(ls: seq<string>, heading: string): (r: Option<(nat, nat)>)
    ensures r.None? <==> forall j :: 0 <= j < |ls| ==> ls[j] != heading
    ensures r.Some? ==> r.value.0 < r.value.1 <= |ls| && ls[r.value.0] == heading
    ensures r.Some? ==> forall j :: r.value.0 < j < r.value.1 ==>
      !StartsWith(ls[j], "#### ") && !StartsWith(ls[j], "## ")
    ensures r.Some? && r.value.1 < |ls| ==> Holds(IndustryBoundary(heading), ls[r.value.1])
    ensures r.Some? ==> forall i, j :: 0 <= i < j < r.value.0 && ls[i] == heading ==>
      !Holds(IndustryBoundary(heading), ls[j])
  {
    var f := FirstFrom(ls, 0, IsLine(heading));
    if f == |ls| then None
    else
      var t := FirstFrom(ls, f + 1, IndustryBoundary(heading));
      var s := LastBefore(ls, t, IsLine(heading));
      assert f <= s;
      Some((s, t))
  }

  /** Where the new-industry branch inserts: the first line after the first line that
      contains `pattern` which starts with `### ` or `## `, else the end of the document. */
  function MonthInsertIndex(ls: seq<string>, pattern: string): (k: nat)
    ensures k <= |ls|
    ensures (forall j :: 0 <= j < |ls| ==> !Contains(ls[j], pattern)) ==> k == |ls|
    ensures forall i | 0 <= i < |ls| && Contains(ls[i], pattern)
        && (forall j :: 0 <= j < i ==> !Contains(ls[j], pattern)) ::
        i < k && (k < |ls| ==> Holds(MonthBoundary, ls[k]))
        && forall j :: i < j < k ==> !Holds(MonthBoundary, ls[j])
  {
    var i := FirstFrom(ls, 0, HasText(pattern));
    if i == |ls| then |ls| else FirstFrom(ls, i + 1, MonthBoundary)
  }

  /** Where the new-month branch inserts: the first line after the line that is exactly
      the latest-news heading which starts with `## `, else the end of the document. */
  function TopInsertIndex(ls: seq<string>): (k: nat)
    ensures k <= |ls|
    ensures (forall j :: 0 <= j < |ls| ==> ls[j] != LatestHeading) ==> k == |ls|
    ensures forall i | 0 <= i < |ls| && ls[i] == LatestHeading
        && (forall j :: 0 <= j < i ==> ls[j] != LatestHeading) ::
        i < k && (k < |ls| ==> Holds(TopBoundary, ls[k]))
        && forall j :: i < j < k ==> !Holds(TopBoundary, ls[j])
  {
    var i := FirstFrom(ls, 0, IsLine(LatestHeading));
    if i == |ls| then |ls| else FirstFrom(ls, i + 1, TopBoundary)
  }

  /** The three ways an existing report is edited. */
  datatype Branch = MonthAndIndustry | NewIndustry | NewMonth

  /** The month test and the industry test are substring tests on the whole text. */
  function SelectBranch(doc: string, e: Entry): (b: Branch)
    ensures b == NewMonth <==> !Contains(doc, MonthHeading(e))
    ensures b == MonthAndIndustry <==>
      Contains(doc, MonthHeading(e)) && Contains(doc, IndustryHeading(e))
  {
    if !Contains(doc, MonthHeading(e)) then NewMonth
    else if Contains(doc, IndustryHeading(e)) then MonthAndIndustry
    else NewIndustry
  }

  /** The branch selection as the script writes it: the industry test looks for the
      name escaped by `re.escape`, as plain text. */
  function SelectBranchAsWritten(doc: string, e: Entry): (b: Branch)
    ensures b == NewMonth <==> !Contains(doc, MonthHeading(e))
    ensures b == MonthAndIndustry <==>
      Contains(doc, MonthHeading(e)) && Contains(doc, "#### " + Escape(e.industry))
  {
    if !Contains(doc, MonthHeading(e)) then NewMonth
    else if Contains(doc, "#### " + Escape(e.industry)) then MonthAndIndustry
    else NewIndustry
  }

  /** For names without special characters the test as written and the literal test
      pick the same branch. */
  lemma AsWrittenAgreesWithoutSpecials(doc: string, e: Entry)
    requires forall i :: 0 <= i < |e.industry| ==> e.industry[i] !in RegexSpecials
    ensures SelectBranchAsWritten(doc, e) == SelectBranch(doc, e)
  {
    EscapeIdentity(e.industry);
  }

  /** The edit of an existing report, before the footer is rewritten. */
  function Edit(doc: string, e: Entry): string {
    EditBy(doc, e, SelectBranch(doc, e))
  }

  /** What each branch does to the document. */
  function EditBy(doc: string, e: Entry, b: Branch): (r: string)
    ensures (b == MonthAndIndustry
      && forall j :: 0 <= j < |Split(doc)| ==> Split(doc)[j] != IndustryHeading(e)) ==> r == doc
    ensures b == NewMonth && !Contains(doc, LatestHeading) ==> r == doc
  {
    match b
    case MonthAndIndustry =>
      var ls := Split(doc);
      (match IndustrySlice(ls, IndustryHeading(e))
       case None => doc
       case Some((s, t)) => Join(ls[..s] + Split(AddEntry(Join(ls[s..t]), e)) + ls[t..]))
    case NewIndustry =>
      var ls := Split(doc);
      Join(Insert(ls, MonthInsertIndex(ls, MonthHeading(e)), NewIndustryBlock(e)))
    case NewMonth =>
      if Find(doc, LatestHeading) == -1 then doc
      else
        var ls := Split(doc);
        Join(Insert(ls, TopInsertIndex(ls), NewMonthBlock(e)))
  }

  /** The footer substitution on one line. The pattern's `.` does not match a newline,
      so a match lies within one line: it starts at the first occurrence of the prefix
      and, `.*` being greedy, ends at the last `*` after it. Without such a `*` there is
      no later match either, since the prefix itself starts with `*`. */
  function RewriteFooterLine(line: string, stamp: string): string {
    var p := Find(line, FooterPrefix);
    if p == -1 then line
    else
      var rest := line[p + |FooterPrefix|..];
      var q := RFind(rest, '*');
      if q == -1 then line else line[..p] + FooterLine(stamp) + rest[q + 1..]
  }

  /** The footer rewrite, applied to every line of the document. */
  function RewriteFooter(doc: string, stamp: string): string {
    var ls := Split(doc);
    Join(seq(|ls|, i requires 0 <= i < |ls| => RewriteFooterLine(ls[i], stamp)))
  }

  /** What a run saves, and whether it reports the report as created or updated. */
  datatype Outcome = Created(text: string) | Updated(text: string)

  /** One run of the updater on the current report (None when the file is missing). */
  function Update(readme: Option<string>, e: Entry, stamp: string): Outcome {
    if readme.None? || readme.value == "" then Created(Scaffold(e, stamp))
    else Updated(RewriteFooter(Edit(readme.value, e), stamp))
  }

  /** One run of the script as written: `Update` with the escaped industry test. */
  function UpdateAsWritten(readme: Option<string>, e: Entry, stamp: string): (o: Outcome)
    ensures o.Created? <==> readme.None? || readme.value == ""
  {
    if readme.None? || readme.value == "" then Created(Scaffold(e, stamp))
    else
      var doc := readme.value;
      Updated(RewriteFooter(EditBy(doc, e, SelectBranchAsWritten(doc, e)), stamp))
  }

  /** For industry names without special characters a run of the script as written is a
      run of `Update`, so what is proved about `Update` holds for the script. */
  lemma UpdateAsWrittenAgrees(readme: Option<string>, e: Entry, stamp: string)
    requires forall i :: 0 <= i < |e.industry| ==> e.industry[i] !in RegexSpecials
    ensures UpdateAsWritten(readme, e, stamp) == Update(readme, e, stamp)
  {
    if readme.Some? {
      AsWrittenAgreesWithoutSpecials(readme.value, e);
    }
  }
}

=== FILE: text.dfy ===
/** The string and list primitives of Python that the report updater relies on:
    `str.startswith`, the `in` test on strings, `str.find`, `str.split('\n')`,
    `'\n'.join(...)` and `list.insert`; and RFind, the last occurrence of a character,
    which is where the greedy `.*` of the footer pattern ends its match. */
module Text {

  /** `s.startswith(p)` */
  predicate StartsWith(s: string, p: string) {
    |p| <= |s| && s[..|p|] == p
  }

  /** `p in s` for two strings: `p` occurs somewhere in `s` (the empty string occurs everywhere). */
  predicate Contains(s: string, p: string)
    decreases |s|
  {
    StartsWith(s, p) || (|s| > 0 && Contains(s[1..], p))
  }

  /** `s.find(p)`: the index of the first occurrence of `p` in `s`, or -1. */
  function Find(s: string, p: string): (r: int)
    ensures r == -1 <==> !Contains(s, p)
    ensures r != -1 ==> 0 <= r <= |s| && StartsWith(s[r..], p)
    ensures forall j :: 0 <= j < r ==> !StartsWith(s[j..], p)
    decreases |s|
  {
    if StartsWith(s, p) then 0
    else if |s| == 0 then -1
    else
      var k := Find(s[1..], p);
      assert forall j :: 1 <= j <= |s| ==> s[j..] == s[1..][j - 1..];
      if k == -1 then -1 else k + 1
  }

  /** The index of the last occurrence of `c` in `s`, or -1. The footer substitution
      matches `.*\*` greedily, so on one line its match ends at the last `*`. */
  function RFind(s: string, c: char): (r: int)
    ensures -1 <= r < |s|
    ensures r == -1 <==> c !in s
    ensures r != -1 ==> s[r] == c
    ensures forall j :: r < j < |s| ==> s[j] != c
    decreases |s|
  {
    if |s| == 0 then -1
    else if s[|s| - 1] == c then |s| - 1
    else
      var r := RFind(s[..|s| - 1], c);
      assert c in s ==> c in s[..|s| - 1] by {
        if c in s {
          var i :| 0 <= i < |s| && s[i] == c;
          assert s[..|s| - 1][i] == c;
        }
      }
      r
  }

  /** `s.split('\n')`: the pieces between newlines; never empty, and `"".split('\n') == [""]`. */
  function Split(s: string): (r: seq<string>)
    ensures |r| >= 1
    ensures forall i :: 0 <= i < |r| ==> '\n' !in r[i]
    decreases |s|
  {
    if |s| == 0 then [""]
    else
      var rest := Split(s[1..]);
      if s[0] == '\n' then [""] + rest
      else [[s[0]] + rest[0]] + rest[1..]
  }

  /** `'\n'.join(ls)` */
  function Join(ls: seq<string>): string
    decreases |ls|
  {
    if |ls| == 0 then ""
    else if |ls| == 1 then ls[0]
    else ls[0] + "\n" + Join(ls[1..])
  }

  /** No element of `ls` holds a newline, as is the case for the result of `Split`. */
  predicate NewlineFree(ls: seq<string>) {
    forall i :: 0 <= i < |ls| ==> '\n' !in ls[i]
  }

  /** The lines obtained by splitting every element of `ls` in turn. */
  function SplitEach(ls: seq<string>): seq<string>
    decreases |ls|
  {
    if |ls| == 0 then [] else Split(ls[0]) + SplitEach(ls[1..])
  }

  /** `l.insert(k, x)` for a non-negative index: an index past the end appends. */
  function Insert<T>(s: seq<T>, k: nat, x: T): (r: seq<T>)
    ensures |r| == |s| + 1
    ensures var c := if k < |s| then k else |s|;
      r[c] == x &&
      (forall j :: 0 <= j < c ==> r[j] == s[j]) &&
      (forall j :: c <= j < |s| ==> r[j + 1] == s[j])
  {
    if k < |s| then s[..k] + [x] + s[k..] else s + [x]
  }

  lemma {:induction false} SplitSingle(s: string)
    requires '\n' !in s
    ensures Split(s) == [s]
    decreases |s|
  {
    if |s| > 0 {
      SplitSingle(s[1..]);
      assert [s[0]] + s[1..] == s;
    }
  }

  /** Splitting text around one newline splits each side separately. */
  lemma {:induction false} SplitAtNewline(a: string, b: string)
    ensures Split(a + "\n" + b) == Split(a) + Split(b)
    decreases |a|
  {
    if |a| == 0 {
      assert a + "\n" + b == "\n" + b;
      assert ("\n" + b)[1..] == b;
    } else {
      assert (a + "\n" + b)[1..] == a[1..] + "\n" + b;
      SplitAtNewline(a[1..], b);
    }
  }

  lemma {:induction false} SplitJoinEach(ls: seq<string>)
    requires |ls| >= 1
    ensures Split(Join(ls)) == SplitEach(ls)
    decreases |ls|
  {
    if |ls| == 1 {
      assert SplitEach(ls) == Split(ls[0]) + SplitEach([]);
    } else {
      SplitAtNewline(ls[0], Join(ls[1..]));
      SplitJoinEach(ls[1..]);
    }
  }

  lemma {:induction false} SplitEachAppend(a: seq<string>, b: seq<string>)
    ensures SplitEach(a + b) == SplitEach(a) + SplitEach(b)
    decreases |a|
  {
    if |a| == 0 {
      assert a + b == b;
    } else {
      assert (a + b)[1..] == a[1..] + b;
      SplitEachAppend(a[1..], b);
    }
  }

  lemma {:induction false} SplitEachNewlineFree(ls: seq<string>)
    requires NewlineFree(ls)
    ensures SplitEach(ls) == ls
    decreases |ls|
  {
    if |ls| > 0 {
      SplitSingle(ls[0]);
      SplitEachNewlineFree(ls[1..]);
    }
  }

  /** Round trip: joining newline-free lines and splitting the text gives the lines back. */
  lemma SplitJoin(ls: seq<string>)
    requires |ls| >= 1 && NewlineFree(ls)
    ensures Split(Join(ls)) == ls
  {
    SplitJoinEach(ls);
    SplitEachNewlineFree(ls);
  }

  /** Round trip: splitting a text into lines and joining them gives the text back. */
  lemma {:induction false} JoinSplit(s: string)
    ensures Join(Split(s)) == s
    decreases |s|
  {
    if |s| > 0 {
      var rest := Split(s[1..]);
      JoinSplit(s[1..]);
      if s[0] == '\n' {
        assert Split(s) == [""] + rest;
        assert ([""] + rest)[1..] == rest;
        assert s == "\n" + s[1..];
      } else {
        var r := [[s[0]] + rest[0]] + rest[1..];
        assert Split(s) == r;
        if |rest| == 1 {
          assert s == [s[0]] + s[1..];
        } else {
          assert r[1..] == rest[1..];
          assert Join(rest) == rest[0] + "\n" + Join(rest[1..]);
          assert s == [s[0]] + s[1..];
        }
      }
    }
  }

  /** Splitting one element inserted among newline-free lines splits only that element. */
  lemma SplitJoinAround(pre: seq<string>, x: string, post: seq<string>)
    requires NewlineFree(pre) && NewlineFree(post)
    ensures Split(Join(pre + [x] + post)) == pre + Split(x) + post
  {
    var ls := pre + [x] + post;
    SplitJoinEach(ls);
    SplitEachAppend(pre + [x], post);
    SplitEachAppend(pre, [x]);
    SplitEachSingle(x);
    SplitEachNewlineFree(pre);
    SplitEachNewlineFree(post);
  }

  lemma SplitEachSingle(x: string)
    ensures SplitEach([x]) == Split(x)
  {
    assert SplitEach([x]) == Split(x) + SplitEach([]);
  }

  lemma {:induction false} ContainsAfter(x: string, s: string, p: string)
    requires Contains(s, p)
    ensures Contains(x + s, p)
    decreases |x|
  {
    if |x| > 0 {
      assert (x + s)[1..] == x[1..] + s;
      ContainsAfter(x[1..], s, p);
    } else {
      assert x + s == s;
    }
  }

  lemma {:induction false} ContainsBefore(s: string, y: string, p: string)
    requires Contains(s, p)
    ensures Contains(s + y, p)
    decreases |s|
  {
    if StartsWith(s, p) {
      assert (s + y)[..|p|] == s[..|p|];
    } else {
      assert (s + y)[1..] == s[1..] + y;
      ContainsBefore(s[1..], y, p);
    }
  }

  /** A text contains whatever is written in the middle of it. */
  lemma ContainsMiddle(x: string, p: string, y: string)
    ensures Contains(x + p + y, p)
  {
    assert (p + y)[..|p|] == p;
    ContainsAfter(x, p + y, p);
    assert x + (p + y) == x + p + y;
  }

  /** `in` is transitive: a text contains what its substrings contain. */
  lemma {:induction false} ContainsTransitive(s: string, p: string, q: string)
    requires Contains(s, p) && Contains(p, q)
    ensures Contains(s, q)
    decreases |s|
  {
    if StartsWith(s, p) {
      assert s == p + s[|p|..];
      ContainsBefore(p, s[|p|..], q);
    } else {
      ContainsTransitive(s[1..], p, q);
    }
  }

  /** Every character of a substring occurs in the text. */
  lemma {:induction false} ContainsChar(s: string, p: string, c: char)
    requires Contains(s, p) && c in p
    ensures c in s
    decreases |s|
  {
    if StartsWith(s, p) {
      assert p == s[..|p|];
    } else {
      ContainsChar(s[1..], p, c);
    }
  }

  /** The joined text contains each of its lines. */
  lemma {:induction false} ContainsLine(ls: seq<string>, i: nat)
    requires i < |ls|
    ensures Contains(Join(ls), ls[i])
    decreases |ls|
  {
    if |ls| == 1 {
      ContainsMiddle("", ls[0], "");
      assert "" + ls[0] + "" == ls[0];
    } else if i == 0 {
      var rest := "\n" + Join(ls[1..]);
      assert StartsWith(ls[0] + rest, ls[0]) by {
        assert (ls[0] + rest)[..|ls[0]|] == ls[0];
      }
      assert Join(ls) == ls[0] + rest;
    } else {
      ContainsLine(ls[1..], i - 1);
      ContainsAfter(ls[0] + "\n", Join(ls[1..]), ls[i]);
    }
  }

  lemma NewlineFreeAppend(a: seq<string>, b: seq<string>)
    requires NewlineFree(a) && NewlineFree(b)
    ensures NewlineFree(a + b)
  {
    assert forall i :: |a| <= i < |a + b| ==> (a + b)[i] == b[i - |a|];
  }

  /** A newline-free string found in a text lies within one of its lines. */
  lemma {:induction false} ContainsAcrossNewline(a: string, b: string, p: string)
    requires '\n' !in p && Contains(a + "\n" + b, p)
    ensures Contains(a, p) || Contains(b, p)
    decreases |a|
  {
    var s := a + "\n" + b;
    if StartsWith(s, p) {
      assert forall i :: 0 <= i < |p| ==> s[i] == p[i];
      assert s[|a|] == '\n';
      assert a[..|p|] == s[..|p|];
    } else if |a| == 0 {
      assert s[1..] == b;
    } else {
      assert s[1..] == a[1..] + "\n" + b;
      ContainsAcrossNewline(a[1..], b, p);
    }
  }

  /** The lines of a text between them contain every newline-free string the text contains. */
  lemma {:induction false} ContainsSomeLine(ls: seq<string>, p: string)
    requires |ls| >= 1 && '\n' !in p && Contains(Join(ls), p)
    ensures exists i :: 0 <= i < |ls| && Contains(ls[i], p)
    decreases |ls|
  {
    if |ls| > 1 {
      ContainsAcrossNewline(ls[0], Join(ls[1..]), p);
      if !Contains(ls[0], p) {
        ContainsSomeLine(ls[1..], p);
        var i :| 0 <= i < |ls| - 1 && Contains(ls[1..][i], p);
        assert Contains(ls[i + 1], p);
      }
    }
  }
}

=== FILE: updater.dfy ===
/** The updater as scripts/update_readme.py runs it: `add_entry_to_month` and
    `update_readme` with their scanning loops, their `break`s, their -1 sentinels,
    `list.insert` and the slice assignment. Each method is proved equal to its
    specification in module Sections; `UpdateReadme` keeps the industry test as
    written, on the `re.escape`d name, and so equals `Sections.UpdateAsWritten`,
    which is `Sections.Update` for names without special characters. */
module Updater {
  import opened Wrappers
  import opened Text
  import opened Scan
  import opened Layout
  import opened Sections

  /** `add_entry_to_month(current_month, new_entry)` */
  method AddEntryToMonth(section: string, e: Entry) returns (r: string)
    ensures r == AddEntry(section, e)
    ensures (forall j :: 0 <= j < |Split(section)| ==> !Contains(Split(section)[j], TableHeader))
      ==> r == section + NewTableSuffix(e)
  {
    var lines := Split(section);
    var tableStart := -1;
    var separatorLine := -1;
    var i := 0;
    while i < |lines|
      invariant 0 <= i <= |lines|
      invariant tableStart == -1 && separatorLine == -1
      invariant forall j :: 0 <= j < i ==> !Contains(lines[j], TableHeader)
    {
      if Contains(lines[i], TableHeader) {
        tableStart := i;
        separatorLine := i + 1;
        break;
      }
      i := i + 1;
    }
    if tableStart == -1 {
      FirstFromIs(lines, 0, HasText(TableHeader), |lines|);
      return section + NewTableSuffix(e);
    }
    assert 0 <= tableStart < |lines| && Contains(lines[tableStart], TableHeader);
    FirstFromIs(lines, 0, HasText(TableHeader), tableStart);
    assert AddEntry(section, e) == Join(Insert(lines, tableStart + 2, Row(e)));
    var newRow := Row(e);
    lines := Insert(lines, separatorLine + 1, newRow);
    r := Join(lines);
  }

  /** The scan for the industry subsection (`start_idx`, `end_idx`), with `end_idx`
      set to the number of lines when the scan runs off the end. */
  method LocateIndustry(lines: seq<string>, heading: string) returns (startIdx: int, endIdx: int)
    ensures startIdx == -1 <==> IndustrySlice(lines, heading).None?
    ensures startIdx != -1 ==> IndustrySlice(lines, heading) == Some((startIdx, endIdx))
  {
    startIdx, endIdx := -1, -1;
    ghost var first := FirstFrom(lines, 0, IsLine(heading));
    var i := 0;
    while i < |lines|
      invariant 0 <= i <= |lines| && endIdx == -1
      invariant -1 <= startIdx < i
      invariant startIdx == -1 <==> first >= i
      invariant startIdx != -1 ==> first <= startIdx
      invariant startIdx != -1 ==> startIdx == LastBefore(lines, i, IsLine(heading))
      invariant startIdx != -1 ==>
        forall j :: first < j < i ==> !Holds(IndustryBoundary(heading), lines[j])
    {
      var line := lines[i];
      if line == heading {
        startIdx := i;
      } else if startIdx != -1 && StartsWith(line, "#### ") && i > startIdx {
        endIdx := i;
        break;
      } else if startIdx != -1 && StartsWith(line, "## ") && i > startIdx {
        endIdx := i;
        break;
      }
      i := i + 1;
    }
    if startIdx != -1 {
      if endIdx == -1 {
        endIdx := |lines|;
      }
      FirstFromIs(lines, first + 1, IndustryBoundary(heading), endIdx);
    }
  }

  /** The scan of the new-industry branch: the first line containing `pattern`, then the
      first later line starting with `### ` or `## ` (`insert_idx`, -1 meaning the end). */
  method FindMonthEnd(lines: seq<string>, pattern: string) returns (insertIdx: nat)
    ensures insertIdx == MonthInsertIndex(lines, pattern)
  {
    var idx := -1;
    var i := 0;
    while i < |lines|
      invariant 0 <= i <= |lines| && idx == -1
      invariant forall j :: 0 <= j < i ==> !Contains(lines[j], pattern)
    {
      if Contains(lines[i], pattern) {
        FirstFromIs(lines, 0, HasText(pattern), i);
        var j := i + 1;
        while j < |lines|
          invariant i < j <= |lines| && idx == -1
          invariant forall k :: i < k < j ==> !Holds(MonthBoundary, lines[k])
        {
          if StartsWith(lines[j], "### ") || StartsWith(lines[j], "## ") {
            idx := j;
            break;
          }
          j := j + 1;
        }
        FirstFromIs(lines, i + 1, MonthBoundary, if idx == -1 then |lines| else idx);
        break;
      }
      i := i + 1;
    }
    if i == |lines| {
      FirstFromIs(lines, 0, HasText(pattern), |lines|);
    }
    insertIdx := if idx == -1 then |lines| else idx;
  }

  /** The scan of the new-month branch: the line that is exactly the latest-news heading,
      then the first later line starting with `## ` and not `### ` (-1 meaning the end). */
  method FindTopEnd(lines: seq<string>) returns (insertIdx: nat)
    ensures insertIdx == TopInsertIndex(lines)
  {
    var idx := -1;
    var i := 0;
    while i < |lines|
      invariant 0 <= i <= |lines| && idx == -1
      invariant forall j :: 0 <= j < i ==> lines[j] != LatestHeading
    {
      if lines[i] == LatestHeading {
        FirstFromIs(lines, 0, IsLine(LatestHeading), i);
        var j := i + 1;
        while j < |lines|
          invariant i < j <= |lines| && idx == -1
          invariant forall k :: i < k < j ==> !Holds(TopBoundary, lines[k])
        {
          if StartsWith(lines[j], "## ") && !StartsWith(lines[j], "### ") {
            idx := j;
            break;
          }
          j := j + 1;
        }
        FirstFromIs(lines, i + 1, TopBoundary, if idx == -1 then |lines| else idx);
        break;
      }
      i := i + 1;
    }
    if i == |lines| {
      FirstFromIs(lines, 0, IsLine(LatestHeading), |lines|);
    }
    insertIdx := if idx == -1 then |lines| else idx;
  }

  /** `update_readme` after the JSON is parsed: `readme` is the file's content (None when
      it does not exist) and `stamp` the formatted current time. The industry test is the
      script's own, on the `re.escape`d name; for names without special characters the
      run is `Update`, the function the properties are proved about. */
  method UpdateReadme(readme: Option<string>, e: Entry, stamp: string) returns (out: Outcome)
    ensures out == UpdateAsWritten(readme, e, stamp)
    ensures (forall i :: 0 <= i < |e.industry| ==> e.industry[i] !in RegexSpecials)
      ==> out == Update(readme, e, stamp)
  {
    if forall i :: 0 <= i < |e.industry| ==> e.industry[i] !in RegexSpecials {
      UpdateAsWrittenAgrees(readme, e, stamp);
    }
    if readme.None? || readme.value == "" {
      return Created(Scaffold(e, stamp));
    }
    var doc := readme.value;
    var monthPattern := MonthHeading(e);
    var industryPattern := "#### " + Escape(e.industry);
    if Contains(doc, monthPattern) {
      if Contains(doc, industryPattern) {
        var lines := Split(doc);
        var startIdx, endIdx := LocateIndustry(lines, IndustryHeading(e));
        if startIdx != -1 {
          var currentSection := Join(lines[startIdx..endIdx]);
          var updatedSection := AddEntryToMonth(currentSection, e);
          lines := lines[..startIdx] + Split(updatedSection) + lines[endIdx..];
          doc := Join(lines);
        }
      } else {
        var lines := Split(doc);
        var insertIdx := FindMonthEnd(lines, monthPattern);
        lines := Insert(lines, insertIdx, NewIndustryBlock(e));
        doc := Join(lines);
      }
    } else if Find(doc, LatestHeading) != -1 {
      var lines := Split(doc);
      var insertIdx := FindTopEnd(lines);
      lines := Insert(lines, insertIdx, NewMonthBlock(e));
      doc := Join(lines);
    }
    doc := RewriteFooter(doc, stamp);
    return Updated(doc);
  }
}

=== FILE: wrappers.dfy ===
/** A value that may be absent: a README file that does not exist, a section not found. */
module Wrappers {
  datatype Option<+T> = None | Some(value: T)
}
